=== FILE: README.md ===
# Geolocation core of common-lib, modelled in Dafny

This project models the shared library's IP geolocation service and the small pure
components beside it. Each piece is a Dafny module.

- **Resolver** (`resolver.dfy`): `GeolocationService::get_location` and `health_check`.
  - An address that is blank after trimming is rejected before the cache or any provider is touched.
  - A fresh cache entry is returned as is.
  - Otherwise the providers are asked, and a successful answer is cached.
- **Cache** (`cache.dfy`): the time-to-live cache, with a clock reading `now` in nanoseconds passed in explicitly.
  - `get_from_cache` hits only while an entry is younger than the TTL.
  - `cache_location` first sweeps expired entries when the cache is full. If it is still full, it evicts the oldest entries so that the new one fits.
  - `get_cache_stats` counts all entries and the fresh ones.
- **Providers** (`providers.dfy`): MaxMind GeoIP2 and ip-api.com. A provider call is an abstract reply: a transport failure, or an HTTP status with a body that decoded or did not.
  - `fetch_from_api` asks MaxMind only when the API key is real. It keeps MaxMind's answer only when that answer is `Ok`.
  - MaxMind's status policy: 404 gives the default location, and other failures are errors.
  - The fallback's degrade policy: an unsuccessful status, or a body whose `status` is not `"success"`, gives the default location.
  - `convert_maxmind_response`.
- **Headers** (`headers.dfy`): `extract_client_ip_from_headers`. It tries X-Forwarded-For (first comma-separated segment), then X-Real-IP, then CF-Connecting-IP, then X-Client-IP.
- **Location** (`location.dfy`): `LocationInfo`, `GeolocationConfig` with its defaults, and the default location.
- **Regions** (`regions.dfy`): the `DataRegion` enum, its string round trip, and the country table built from four lists.
  - `get_region_for_country` and `requires_strict_residency`.
- **Countries** (`countries.dfy`): `is_valid_country_code` and `validate_and_normalize_country_code`.
- **ApiErrors** (`errors.dfy`): the `ApiError` variants.
  - Their HTTP statuses: RFC 9110 sections 15.5 and 15.6, and 428 from RFC 6585 section 3.
  - `status_code`, `registration_required`, and the `Display` texts.
  - The conversions into `ApiError`.
- **Phone** (`phone.dfy`): `get_country_code_from_phone_number`. It is modelled both as written and as corrected (see Findings).
- **Text** (`text.dfy`) holds the Rust string primitives the code relies on:
  - `str::trim` over Unicode White_Space;
  - ASCII upper-casing;
  - UTF-8 byte length;
  - decimal rendering of integers.
- **Wrappers** (`wrappers.dfy`) holds `Option` and `Result`.

Four behaviours of the code are easy to miss, and the model keeps each of them:

- **Lookups can fail after validation.** A transport or decoding failure of ip-api.com is returned by `fetch_from_fallback_service` as an `InternalServerError` (geolocation.rs:395-433). `get_location` passes it on with `?` (geolocation.rs:179). See `Resolver.GetLocation` and `Providers.FallbackTransportFailureSurfaces`.
- **The country code is not checked.** The ip-api.com country code (geolocation.rs:446) and MaxMind's `iso_code` (geolocation.rs:468) are copied into the record unchecked, so an empty one is returned as it is.
- **A cap of 0 still leaves one entry.** `cache_location` evicts everything and then inserts (geolocation.rs:233-251). `Cache.CacheLocation` therefore states the bound as `max(1, max_cache_entries)`.
- **The cache key is the untrimmed address.** Only the blank test trims the address (geolocation.rs:143). The cache key and the request URLs use it exactly as given.

## Model

| member | source | states |
|---|---|---|
| Text.Trim | geolocation.rs:143 | `str::trim` leaves no whitespace at either end, and its result is empty exactly when the input is all whitespace |
| Text.TrimIsInfix | geolocation.rs:143 | the trim is an infix of its input with only whitespace cut from either side |
| Text.TrimIdempotent | geolocation.rs:560 | trimming an already trimmed value changes nothing |
| Text.Upper | region_utils.rs:42 | upper-casing keeps the length and maps each character by ASCII upper-casing |
| Text.ByteLen | country_utils.rs:60 | `str::len` is at least the character count, and equals it exactly when every character is ASCII |
| Text.Utf8Width | country_utils.rs:60 | a character takes one to four UTF-8 bytes, and one byte exactly when it is ASCII |
| Text.NatToStringRoundTrip | error.rs:104 | reading back the decimal digits `Display` prints for a count gives the count |
| Text.IntToStringInjective | error.rs:104 | two different `i32` values never print alike, so quota counts are shown unambiguously |
| ApiErrors.HttpStatus | error.rs:52-62 | the full variant-to-status table, each as an if-and-only-if: BadRequest is exactly 400, Unauthorized exactly 401, NotFound exactly 404, RegistrationRequired exactly 428, InternalServerError exactly 500 (the only 5xx), and PaymentRequired and QuotaExceeded share 402 |
| ApiErrors.StatusCode | error.rs:72-82 | the separately written numeric code always equals the code of `http_status`, and is one of 400, 401, 402, 404, 428, 500 |
| ApiErrors.RegistrationRequiredFor | error.rs:64-70 | builds a 428 error whose message and reason name the action, with the fixed suggested action |
| ApiErrors.Display | error.rs:85-112 | every rendering opens with its variant's fixed tag; the message-only variants render the tag followed by the message unchanged; a registration error renders its message, reason and suggested action in that order, joined by " - " |
| ApiErrors.QuotaFigures | error.rs:95-106 | the figures after a quota error's resource start with its closing quote and contain no other quote |
| ApiErrors.QuotaExceededDisplay | error.rs:95-106 | a quota error renders as its resource in quotes, then "monthly" with count/limit, then "lifetime" with count/limit: monthly before lifetime |
| ApiErrors.QuotaFiguresInjective | error.rs:104 | the monthly count and limit and the lifetime count and limit can be read back from the quota figures |
| ApiErrors.QuotaDisplayDeterminesFields | error.rs:95-106 | two quota errors that render alike are equal: resource, monthly and lifetime figures included |
| ApiErrors.RegistrationRequiredDisplay | error.rs:64-70 | the full text a client sees for `registration_required(action)`: tag, message, reason and suggested action joined by " - " |
| ApiErrors.DisplaySeparatesVariants | error.rs:85-112 | two errors that render alike are of the same variant |
| ApiErrors.DisplayInjectiveOnMessages | error.rs:88-94 | for message-only variants the rendering determines the error |
| ApiErrors.FromString | error.rs:215-220 | a bare string becomes a 500 whose rendering is "Internal Server Error: Generic conversion error: " followed by the string |
| ApiErrors.FromErrorDisplay | error.rs:121-137 | a foreign error becomes a 500 that renders the foreign error's text after the tag |
| Regions.RegionToString | region_utils.rs:13-19 | every region prints as one of "EU", "US" and "APAC", already upper case |
| Regions.RegionFromString | region_utils.rs:22-29 | exactly "EU", "US" and "APAC" parse, each back to the region that prints as that string |
| Regions.RegionStringRoundTrip | region_utils.rs:13-29 | parsing a printed region gives the region back |
| Regions.RegionToStringInjective | region_utils.rs:13-19 | no two regions print alike |
| Regions.AllRegions | region_utils.rs:315-317 | lists each of the three regions exactly once |
| Regions.InsertAll | region_utils.rs:156-158 | one insertion loop binds every listed code to the region and leaves every other key's binding alone |
| Regions.CountryRegionMap | region_utils.rs:47-312 | its keys are exactly the codes on the four lists, and each maps to its list's region: EU for the EU and Middle East/Africa lists, APAC for the APAC list, US for the Americas list |
| Regions.ListsDisjoint | region_utils.rs:51-305 | no code is on two of the four lists, so the order in which they are inserted decides nothing |
| Regions.ListsUpperCase | region_utils.rs:51-305 | every listed code is already upper case |
| Regions.RegionForCountry | region_utils.rs:38-43 | the upper-cased code gives EU on the EU or Middle East/Africa list, APAC on the APAC list, and US otherwise |
| Regions.RegionCaseInsensitive | region_utils.rs:42 | a code and its upper-case form get the same region |
| Regions.ListedCodesMapToTheirRegion | region_utils.rs:47-313 | every code on a list gets that list's region |
| Regions.UnlistedCodesDefaultToUs | region_utils.rs:42 | a code on no list gets US and does not need strict residency |
| Regions.RequiresStrictResidency | region_utils.rs:320-323 | strict residency holds exactly for codes on the EU or Middle East/Africa lists, that is, exactly when the region is EU |
| Regions.StrictnessOfRegion | region_utils.rs:320-323 | strictness depends only on the region |
| Regions.EuExamples | region_utils.rs:331-336 | DE, FR, GB and CH map to EU |
| Regions.AmericasExamples | region_utils.rs:339-344 | US, CA, BR and MX map to US |
| Regions.ApacExamples | region_utils.rs:347-352 | JP, AU, SG and IN map to APAC |
| Regions.DefaultExamples | region_utils.rs:355-358 | ZZ and UNKNOWN default to US |
| Regions.SameUpperSameRegion | region_utils.rs:42 | spellings with the same upper-case form get the same region |
| Regions.LowerCaseExamples | region_utils.rs:361-365 | us, de and jp map like US, DE and JP |
| Regions.RegionStringExamples | region_utils.rs:368-377 | the three printed forms, their parses, and that "INVALID" does not parse |
| Regions.StrictResidencyExamples | region_utils.rs:380-385 | DE and FR need strict residency; US and JP do not |
| Countries.IsValidCountryCode | country_utils.rs:58-66 | valid exactly when the string is two upper-case ASCII letters (its byte length is then 2) |
| Countries.ValidateAndNormalize | country_utils.rs:70-78 | accepts exactly two ASCII letters of either case and returns their upper-case form, which is valid; otherwise it returns the format error naming the input |
| Countries.ErrorQuotesInput | country_utils.rs:76 | the error text contains the rejected input verbatim |
| Countries.NormalizeIdempotent | country_utils.rs:70-78 | normalising an accepted code again returns the same result |
| Countries.ValidIffNormalizesToItself | country_utils.rs:58-78 | the valid codes are exactly the inputs that normalise to themselves |
| Countries.NormalizeAcceptsIffUpperValid | country_utils.rs:71-73 | normalisation accepts exactly when the upper-cased input is valid |
| Countries.ValidityExamples | country_utils.rs:108-119 | US, DE and JP are valid; USA, us, 1 and the empty string are not |
| Countries.NormalizeExamples | country_utils.rs:122-132 | us, DE and jp normalise to US, DE and JP; USA, 1 and the empty string are rejected |
| Phone.StripPlus | src/utils.rs:113 | removes exactly the leading '+' characters, so the rest does not start with '+' |
| Phone.PrefixKey | src/utils.rs:114 | the key is the first one or two characters, and it is two exactly when the second character exists and is one byte wide |
| Phone.CountryFromPhoneAsWritten | src/utils.rs:102-121 | UK exactly when the stripped number begins with 44 |
| Phone.KsaNeverReturned | src/utils.rs:104-114 | the code as written never reports KSA |
| Phone.SaudiNumberReportedUnknown | src/utils.rs:106-114 | +966501234567 is reported as Unknown by the code as written |
| Phone.CountryFromPhone | src/utils.rs:104-107 | corrected lookup: UK exactly for numbers beginning 44, KSA exactly for numbers beginning 966 |
| Phone.CorrectedAgreesOutsideKsa | src/utils.rs:102-121 | the corrected lookup agrees with the code as written except on numbers beginning 966 |
| Phone.StripPlusOnce | src/utils.rs:113 | stripping stops at the first character that is not '+' |
| Phone.StripPlusMore | src/utils.rs:113 | one more leading '+' changes nothing |
| Phone.UkNumberExample | src/utils.rs:105 | +447700900123 is UK |
| Phone.SaudiNumberExample | src/utils.rs:106 | +966501234567 is KSA under the corrected lookup |
| Phone.OtherNumberExample | src/utils.rs:117-120 | +15550100 is Unknown |
| Phone.DoublePlusExample | src/utils.rs:113 | every leading '+' is removed, so ++447700900123 is UK |
| Location.TtlNanos | geolocation.rs:211 | the TTL in clock units is zero exactly when the configured seconds are zero, and is a whole number of seconds |
| Cache.Age | geolocation.rs:230 | the age is `now` minus the timestamp, saturating at zero for timestamps in the future |
| Cache.Lookup | geolocation.rs:206-219 | a hit exactly when the address has an entry younger than the TTL, and then the stored record |
| Cache.Sweep | geolocation.rs:230 | keeps exactly the fresh entries, unchanged |
| Cache.LookupAgreesWithSweep | geolocation.rs:206-230 | a lookup hits exactly the entries a sweep at the same moment keeps |
| Cache.EntryExpiry | geolocation.rs:206-219 | an entry stored at t is a hit d later exactly while d is below the TTL, and at or before t exactly when the TTL is positive |
| Cache.OldestExists | geolocation.rs:234-239 | every non-empty cache has an entry with the least timestamp, so sorting by timestamp has a first element |
| Cache.EvictOldest | geolocation.rs:232-245 | removes min(count, size) entries and keeps the rest unchanged; every removed timestamp is at most every kept one |
| Cache.CacheLocation | geolocation.rs:222-252 | the address then maps to the record stamped `now`, an immediate hit exactly when the TTL is positive; the size is at most max(1, cap); below the cap nothing is removed; when full, stale entries go first and evicted fresh ones are no newer than any survivor; when the sweep alone is not enough and the address is new, exactly `len - cap + 1` entries go, leaving `cap`; other survivors are unchanged |
| Cache.CacheStats | geolocation.rs:538-550 | total is the entry count, valid the number a sweep keeps, valid ≤ total, and they are equal exactly when nothing has expired |
| Cache.FreshKeysStep | geolocation.rs:544-547 | counting one more entry adds one exactly when it is fresh |
| Cache.SweepCount | geolocation.rs:538-550 | a sweep never grows the cache, and keeps every entry exactly when none has expired |
| Providers.ConvertMaxMind | geolocation.rs:467-495 | country code is the ISO code; the name is the English name or else the ISO code; city and region are English names, the region from the first subdivision only; with no location block, latitude, longitude and time zone are all absent |
| Providers.ConvertReadsFirstSubdivisionOnly | geolocation.rs:476-480 | subdivisions after the first never change the record |
| Providers.FetchFromMaxMind | geolocation.rs:286-379 | Ok exactly for a 404 (the default location) or a 2xx with a decodable body (its conversion); every error is an InternalServerError |
| Providers.MaxMindErrorMessages | geolocation.rs:301-365 | 401 and 429 have their own texts, other unsuccessful statuses quote the number, and transport and decoding failures quote the underlying error |
| Providers.FetchFromFallback | geolocation.rs:382-464 | an error exactly on transport failure or an undecodable 2xx body; an unsuccessful status or a non-"success" body gives the default location; otherwise every field comes from the body and all details are present |
| Providers.FallbackErrorMessages | geolocation.rs:395-433 | the fallback's error texts quote the underlying error |
| Providers.FallbackDetailsOnlyOnSuccess | geolocation.rs:411-453 | an Ok answer carries details exactly when the reply was a 2xx whose body reports success |
| Providers.HasRealApiKey | geolocation.rs:261-265 | MaxMind is tried exactly for a key other than the empty key and the two placeholders |
| Providers.FetchFromApi | geolocation.rs:255-283 | MaxMind is called first exactly when the key is real; ip-api.com is called last exactly when MaxMind was not called or failed, and its answer is then the result; a MaxMind answer is kept only when Ok |
| Providers.FetchErrorsComeFromFallback | geolocation.rs:266-282 | MaxMind's errors never reach the caller: every error is ip-api.com's, after it was called |
| Providers.FetchWithoutKeyIgnoresMaxMind | geolocation.rs:261-265 | with an empty or placeholder key, MaxMind is never called and its reply is irrelevant |
| Providers.DefaultConfigUsesFallbackOnly | geolocation.rs:70-79 | the default configuration's empty key sends every lookup to ip-api.com alone |
| Providers.MaxMindNotFoundStopsAtDefault | geolocation.rs:338-340 | a MaxMind 404 returns the default location without calling ip-api.com |
| Providers.FallbackTransportFailureSurfaces | geolocation.rs:395-409 | when MaxMind did not answer, an unreachable ip-api.com is reported as an error, not replaced by the default |
| Resolver.GetLocation | geolocation.rs:132-252 | blank address: BadRequest with no cache change and no calls; fresh hit: the cached record with no calls; miss: the fetch's calls and result, an Ok stored under the address at the write time through `cache_location`, so the size cap holds and a full cache is swept and then loses its oldest entries first (geolocation.rs:222-252); an error leaves the cache unchanged; no other entry is altered |
| Resolver.ProbeAddressIsNotBlank | geolocation.rs:517 | the probe address passes validation |
| Resolver.HealthCheck | geolocation.rs:511-535 | healthy on a fresh cached probe entry; otherwise healthy exactly when the fetch succeeds, a fetched probe record is then cached at the write time under the same size cap, sweep and oldest-first eviction as any lookup, and the fetch's error is passed on; no other entry changes |
| Resolver.ResolveTwice | geolocation.rs:150-182 | after a successful fetch, the same address resolved within the TTL returns the same record with no provider call |
| Headers.GetOne | geolocation.rs:556 | the first value stored under a name equal up to ASCII case, and absent exactly when no header has that name |
| Headers.FirstSegment | geolocation.rs:559 | the longest comma-free prefix, followed by a comma unless it is the whole value |
| Headers.Candidate | geolocation.rs:556-589 | a header contributes a value exactly when present; the value is the header's value with surrounding whitespace cut off, and for X-Forwarded-For the first comma-separated segment so cut, holding no comma |
| Headers.ClientIp | geolocation.rs:554-592 | any result is usable and trimmed; None exactly when none of the four headers yields a usable value |
| Headers.ClientIpIsFirstAccepted | geolocation.rs:554-592 | the result is the first usable candidate in the order X-Forwarded-For, X-Real-IP, CF-Connecting-IP, X-Client-IP |
| Headers.UnrelatedHeadersIgnored | geolocation.rs:554-592 | headers other than the four never change the result |
| Headers.FirstSegmentWhole | geolocation.rs:559 | a comma-free value is its own first segment |
| Headers.FirstSegmentBeforeComma | geolocation.rs:559 | the first segment of a value is the part before the first comma |
| Headers.LoneForwardedFor | geolocation.rs:556-565 | a lone X-Forwarded-For yields its trimmed first segment when usable, otherwise nothing |
| Headers.LoneRealIp | geolocation.rs:568-573 | a lone X-Real-IP yields its trimmed value when usable, otherwise nothing |
| Headers.ForwardedForSingleExample | geolocation.rs:602-604 | X-Forwarded-For 192.168.1.1 gives 192.168.1.1 |
| Headers.ForwardedForListExample | geolocation.rs:606-608 | X-Forwarded-For "192.168.1.1, 10.0.0.1, 172.16.0.1" gives 192.168.1.1 |
| Headers.RealIpExample | geolocation.rs:610-613 | X-Real-IP 203.0.113.1 gives 203.0.113.1 |
| Headers.NoHeadersExample | geolocation.rs:615-617 | no headers give nothing |
| Headers.UnknownFirstHopExample | geolocation.rs:559-564 | an "unknown" first hop moves on to the next header, never to the next hop |
| Headers.LowerCaseNameExample | geolocation.rs:568 | a lower-case x-real-ip header is found |

## Left out

- Runtime plumbing is not modelled:
  - the Tokio `RwLock` and `Arc` sharing;
  - reqwest requests, basic authentication with the API key, and per-request timeouts (`timeoutSeconds` is carried in the configuration and not used);
  - serde decoding, reduced to the abstract `Decoded` outcome;
  - `tracing` logs, correlation ids and `OperationTimer`.
- The model is sequential, because concurrent `get_location` calls can interleave between the cache read and the later write, and that interleaving is not modelled.
- `response.text()` in MaxMind's error path only feeds a log line, so it is not modelled.
- Latitude and longitude are opaque 64-bit payloads, because no arithmetic is done on them.
- Regions.RegionForCountry: non-ASCII characters are left unchanged by the model's upper-casing. Rust's `to_uppercase` maps some of them to ASCII letters ('ı' to 'I', 'ſ' to 'S').
- Countries.ValidateAndNormalize: same ASCII-only upper-casing. Inputs such as "ß", which Rust upper-cases to "SS", are rejected by the model although the code accepts them.
- Text.Upper: keeps the length and changes only ASCII letters. Rust's `to_uppercase` can lengthen a string ("ß" becomes "SS") and maps some non-ASCII characters to ASCII letters.
- Providers.FetchFromMaxMind: the "Geolocation service error: " text shows only the status digits. Rust also appends the canonical reason phrase ("503 Service Unavailable"). The text never reaches a caller, because every MaxMind error falls through to ip-api.com.
- Providers.MaxMindErrorMessages: states the generic error text as "Geolocation service error: " followed by the status digits only. Rust's `{status}` also appends a space and the reason phrase, or "<unknown status code>". The text never reaches a caller, because every MaxMind error falls through to ip-api.com.
- Cache.CacheLocation: one clock reading `now` is used for both the sweep and the new entry's timestamp. The code reads the clock twice, an instant apart.
- Integer widths (`u64`, `usize`, `u16`) are unbounded here, because none of the modelled arithmetic comes near them. The quota counts keep their `i32` range.
- `parse_phone_number_to_country` is a thin wrapper over the `phonenumber` crate, so it is not modelled.
- The rest of `src/utils.rs` (random tokens, environment variables, S3, Secrets Manager) is I/O or randomness.
- `logging.rs`, `utils.rs` and `shared_models.rs` are not part of this model.
- `src/error.rs` is an older subset of `error.rs` and is covered by the `ApiErrors` module.
- The OpenAPI response table and the Rocket `Responder` of `ApiError` are framework code.
- The `UK` and `KSA` constants are defined in a constants module that is not part of this model. They are kept as symbolic values.
- Phone.CountryFromPhoneAsWritten requires that the stripped number is non-empty and starts with an ASCII character. The fallback slice `&clean_number[0..1]` is the argument of `unwrap_or`, so it is evaluated even when `get(0..2)` succeeds. On any other input, such as "+é1" or a number in Arabic-Indic digits, the code panics because byte 1 is not a character boundary.
- The serde round-trip test of `LocationInfo` exercises serialization, which is not modelled.

## Findings

| source | as written | input that shows it | evidently intended | confidence | as-written member | corrected member |
|---|---|---|---|---|---|---|
| src/utils.rs:104-114 | the lookup key is at most two characters long, so the three-character "966" entry can never match | "+966501234567" gives Unknown | numbers beginning 966 give KSA | not executed | Phone.KsaNeverReturned | Phone.CountryFromPhone |

=== FILE: cache.dfy ===
/** The service's in-memory cache: IP address to (location, time stored),
    read with a time-to-live and written with a size cap that first drops
    expired entries and then the oldest ones. Time is an explicit clock
    reading `now`, in nanoseconds. */
module Cache {
  import opened Wrappers
  import opened Location

  /** `CacheEntry`: the record and the clock reading when it was stored. */
  datatype CacheEntry = CacheEntry(location: LocationInfo, timestamp: nat)

  type Cache = map<string, CacheEntry>

  /** `Instant::duration_since` (and `elapsed`), which saturate at zero when
      the entry's timestamp is later than `now`. */
  function Age(e: CacheEntry, now: nat): (age: nat)
    ensures e.timestamp <= now ==> e.timestamp + age == now
    ensures now <= e.timestamp ==> age == 0
  {
    if e.timestamp <= now then now - e.timestamp else 0
  }

  /** An entry younger than the time-to-live. */
  predicate IsFresh(e: CacheEntry, now: nat, ttl: nat) {
    Age(e, now) < ttl
  }

  /** `get_from_cache`: the stored record, but only while it is fresh. */
  function Lookup(cache: Cache, ip: string, now: nat, ttl: nat): (r: Option<LocationInfo>)
    ensures r.Some? <==> ip in cache && IsFresh(cache[ip], now, ttl)
    ensures r.Some? ==> r.value == cache[ip].location
  {
    if ip in cache && Age(cache[ip], now) < ttl then Some(cache[ip].location) else None
  }

  /** `cache.retain(...)` with the freshness test: keeps exactly the fresh
      entries, untouched. */
  function Sweep(cache: Cache, now: nat, ttl: nat): (swept: Cache)
    ensures swept.Keys <= cache.Keys
    ensures forall k | k in swept :: swept[k] == cache[k]
    ensures forall k | k in cache :: k in swept <==> IsFresh(cache[k], now, ttl)
  {
    map k | k in cache && IsFresh(cache[k], now, ttl) :: cache[k]
  }

  /** A lookup hits exactly the entries a sweep at the same moment would keep. */
  lemma LookupAgreesWithSweep(cache: Cache, ip: string, now: nat, ttl: nat)
    ensures Lookup(cache, ip, now, ttl).Some? <==> ip in Sweep(cache, now, ttl)
  {
  }

  /** An entry stored at time `t` is a hit `d` nanoseconds later exactly
      while `d < ttl`; at or before `t` it is a hit exactly when `ttl > 0`. */
  lemma EntryExpiry(cache: Cache, ip: string, loc: LocationInfo, t: nat, d: nat, ttl: nat)
    requires ip in cache && cache[ip] == CacheEntry(loc, t)
    ensures Lookup(cache, ip, t + d, ttl) == (if d < ttl then Some(loc) else None)
    ensures forall now: nat | now <= t :: Lookup(cache, ip, now, ttl).Some? <==> ttl > 0
  {
  }

  /** Removing one key shrinks a map by one. */
  lemma RemoveOne(m: Cache, k: string)
    requires k in m
    ensures |m - {k}| == |m| - 1
  {
    assert (m - {k}).Keys == m.Keys - {k};
  }

  /** `k` has the earliest timestamp in `m`. */
  predicate IsOldest(m: Cache, k: string) {
    k in m && forall j | j in m :: m[k].timestamp <= m[j].timestamp
  }

  /** Every non-empty cache has an oldest entry. */
  lemma {:induction false} OldestExists(m: Cache)
    requires |m| > 0
    ensures exists k :: IsOldest(m, k)
    decreases |m|
  {
    var x :| x in m;
    var rest := m - {x};
    RemoveOne(m, x);
    if |rest| == 0 {
      assert IsOldest(m, x);
    } else {
      OldestExists(rest);
      var y :| IsOldest(rest, y);
      var z := if m[x].timestamp <= m[y].timestamp then x else y;
      forall j | j in m
        ensures m[z].timestamp <= m[j].timestamp
      {
        if j != x {
          assert j in rest;
        }
      }
      assert IsOldest(m, z);
    }
  }

  /** Sort by timestamp and remove the first `count`: each step removes an
      entry with the least remaining timestamp. Ties are broken arbitrarily,
      as the source's order of iterating its `HashMap` is unspecified. */
  method EvictOldest(cache: Cache, count: nat) returns (out: Cache)
    ensures out.Keys <= cache.Keys
    ensures forall k | k in out :: out[k] == cache[k]
    ensures |out| == if count >= |cache| then 0 else |cache| - count
    ensures forall r, s | r in cache && r !in out && s in out ::
              cache[r].timestamp <= cache[s].timestamp
  {
    out := cache;
    var i := 0;
    while i < count && |out| > 0
      invariant i <= count
      invariant out.Keys <= cache.Keys
      invariant forall k | k in out :: out[k] == cache[k]
      invariant |out| + i == |cache|
      invariant forall r, s | r in cache && r !in out && s in out ::
                  cache[r].timestamp <= cache[s].timestamp
      decreases count - i
    {
      OldestExists(out);
      var k :| IsOldest(out, k);
      RemoveOne(out, k);
      out := out - {k};
      i := i + 1;
    }
  }

  /** What a call of `cache_location` guarantees about the cache `out` it
      leaves behind: the new entry under `ip`, the size cap, the sweep-first
      order, oldest-first eviction and every other binding untouched. */
  ghost predicate StoredWithCap(cache: Cache, maxEntries: nat, ttl: nat, ip: string,
                                loc: LocationInfo, now: nat, out: Cache)
  {
    && ip in out && out[ip] == CacheEntry(loc, now)
    && |out| <= (if maxEntries == 0 then 1 else maxEntries)
    && (|cache| < maxEntries ==> out == cache[ip := CacheEntry(loc, now)])
    && (|cache| >= maxEntries && |Sweep(cache, now, ttl)| < maxEntries ==>
          out == Sweep(cache, now, ttl)[ip := CacheEntry(loc, now)])
    && (forall k | k in out && k != ip :: k in cache && out[k] == cache[k])
    && (|cache| >= maxEntries ==>
          forall k | k in out && k != ip :: IsFresh(cache[k], now, ttl))
    && (|cache| >= maxEntries ==>
          forall a, b | a in cache && IsFresh(cache[a], now, ttl) && a !in out && b in out && b != ip ::
            cache[a].timestamp <= cache[b].timestamp)
    && (|cache| >= maxEntries > 0 && |Sweep(cache, now, ttl)| >= maxEntries && ip !in Sweep(cache, now, ttl) ==>
          |out| == maxEntries)
  }

  /** `cache_location`. When the cache holds `maxEntries` or more entries it
      first sweeps the expired ones; if it is still that full it evicts the
      `len - maxEntries + 1` oldest. Then it stores `loc` under `ip` at `now`. */
  method CacheLocation(cache: Cache, maxEntries: nat, ttl: nat, ip: string, loc: LocationInfo, now: nat)
    returns (out: Cache)
    ensures ip in out && out[ip] == CacheEntry(loc, now)
    ensures Lookup(out, ip, now, ttl) == (if ttl > 0 then Some(loc) else None)
    ensures |out| <= if maxEntries == 0 then 1 else maxEntries
    ensures |cache| < maxEntries ==> out == cache[ip := CacheEntry(loc, now)]
    ensures |cache| >= maxEntries && |Sweep(cache, now, ttl)| < maxEntries ==>
              out == Sweep(cache, now, ttl)[ip := CacheEntry(loc, now)]
    ensures forall k | k in out && k != ip :: k in cache && out[k] == cache[k]
    ensures |cache| >= maxEntries ==>
              forall k | k in out && k != ip :: IsFresh(cache[k], now, ttl)
    ensures |cache| >= maxEntries ==>
              forall r, s | r in cache && IsFresh(cache[r], now, ttl) && r !in out && s in out && s != ip ::
                cache[r].timestamp <= cache[s].timestamp
    ensures |cache| >= maxEntries && |Sweep(cache, now, ttl)| >= maxEntries > 0 ==>
              |out| >= maxEntries - 1
    ensures |cache| >= maxEntries > 0 && |Sweep(cache, now, ttl)| >= maxEntries && ip !in Sweep(cache, now, ttl) ==>
              |out| == maxEntries
  {
    var kept := cache;
    if |cache| >= maxEntries {
      kept := Sweep(cache, now, ttl);
      if |kept| >= maxEntries {
        kept := EvictOldest(kept, |kept| - maxEntries + 1);
      }
    }
    out := kept[ip := CacheEntry(loc, now)];
  }

  /** `get_cache_stats`: the number of entries, and how many of them are
      still fresh at `now`. */
  method CacheStats(cache: Cache, now: nat, ttl: nat) returns (total: nat, valid: nat)
    ensures total == |cache|
    ensures valid == |Sweep(cache, now, ttl)|
    ensures valid <= total
    ensures valid == total <==> forall k | k in cache :: IsFresh(cache[k], now, ttl)
  {
    total := |cache|;
    valid := 0;
    var remaining := cache.Keys;
    ghost var counted: set<string> := {};
    while remaining != {}
      invariant remaining + counted == cache.Keys && remaining !! counted
      invariant valid == |FreshKeys(cache, counted, now, ttl)|
      decreases |remaining|
    {
      var k :| k in remaining;
      FreshKeysStep(cache, counted, k, now, ttl);
      if IsFresh(cache[k], now, ttl) {
        valid := valid + 1;
      }
      remaining := remaining - {k};
      counted := counted + {k};
    }
    assert FreshKeys(cache, counted, now, ttl) == Sweep(cache, now, ttl).Keys;
    SweepCount(cache, now, ttl);
  }

  /** The keys among `ks` whose entries are fresh. */
  ghost function FreshKeys(cache: Cache, ks: set<string>, now: nat, ttl: nat): set<string>
    requires ks <= cache.Keys
  {
    set k | k in ks && IsFresh(cache[k], now, ttl)
  }

  /** Counting one more key adds one exactly when its entry is fresh. */
  lemma FreshKeysStep(cache: Cache, ks: set<string>, k: string, now: nat, ttl: nat)
    requires ks <= cache.Keys && k in cache && k !in ks
    ensures |FreshKeys(cache, ks + {k}, now, ttl)| ==
            |FreshKeys(cache, ks, now, ttl)| + (if IsFresh(cache[k], now, ttl) then 1 else 0)
  {
    if IsFresh(cache[k], now, ttl) {
      assert FreshKeys(cache, ks + {k}, now, ttl) == FreshKeys(cache, ks, now, ttl) + {k};
    } else {
      assert FreshKeys(cache, ks + {k}, now, ttl) == FreshKeys(cache, ks, now, ttl);
    }
  }

  /** A sweep never grows the cache, and leaves it whole exactly when no
      entry has expired. */
  lemma SweepCount(cache: Cache, now: nat, ttl: nat)
    ensures |Sweep(cache, now, ttl)| <= |cache|
    ensures |Sweep(cache, now, ttl)| == |cache| <==> forall k | k in cache :: IsFresh(cache[k], now, ttl)
  {
    var live := Sweep(cache, now, ttl).Keys;
    assert cache.Keys == live + (cache.Keys - live);
    if |Sweep(cache, now, ttl)| == |cache| {
      assert cache.Keys - live == {};
    }
    if forall k | k in cache :: IsFresh(cache[k], now, ttl) {
      assert live == cache.Keys;
    }
  }
}

=== FILE: countries.dfy ===
/** `CountryService`'s format checks on ISO 3166-1 alpha-2 country codes:
    the strict validity test and the normalising variant that upper-cases
    its input first. */
module Countries {
  import opened Wrappers
  import opened Text

  /** Two upper-case ASCII letters and nothing else. */
  predicate IsAlpha2(s: string) {
    |s| == 2 && IsAsciiUpper(s[0]) && IsAsciiUpper(s[1])
  }

  /** `CountryService::is_valid_country_code`: the byte length must be 2 and
      every character an upper-case ASCII letter. Since such letters are
      one byte wide, the byte-length test and the character count agree. */
  function IsValidCountryCode(s: string): (valid: bool)
    ensures valid <==> IsAlpha2(s)
  {
    if ByteLen(s) != 2 then false
    else forall i | 0 <= i < |s| :: IsAsciiUpper(s[i])
  }

  function InvalidFormatMessage(s: string): string {
    "Invalid country code format: '" + s + "'"
  }

  /** `CountryService::validate_and_normalize_country_code`: upper-case the
      input, accept it when the result is a valid code, otherwise report the
      input exactly as it was given. */
  function ValidateAndNormalize(s: string): (r: Result<string, string>)
    ensures r.Ok? <==> |s| == 2 && forall i | 0 <= i < 2 :: IsAsciiUpper(s[i]) || IsAsciiLower(s[i])
    ensures r.Ok? ==> r.value == Upper(s) && IsValidCountryCode(r.value)
    ensures r.Err? ==> r.error == InvalidFormatMessage(s)
  {
    var normalized := Upper(s);
    if IsValidCountryCode(normalized) then Ok(normalized) else Err(InvalidFormatMessage(s))
  }

  /** The error text quotes the rejected input verbatim. */
  lemma ErrorQuotesInput(s: string)
    requires ValidateAndNormalize(s).Err?
    ensures var m := ValidateAndNormalize(s).error;
            var at := |"Invalid country code format: '"|;
            at + |s| < |m| && m[at..at + |s|] == s
  {
  }

  /** Normalising is idempotent: an accepted code is valid and normalises to itself. */
  lemma NormalizeIdempotent(s: string)
    requires ValidateAndNormalize(s).Ok?
    ensures ValidateAndNormalize(ValidateAndNormalize(s).value) == ValidateAndNormalize(s)
  {
    UpperIdempotent(s);
  }

  /** The valid codes are exactly the fixed points of normalisation. */
  lemma ValidIffNormalizesToItself(s: string)
    ensures IsValidCountryCode(s) <==> ValidateAndNormalize(s) == Ok(s)
  {
    if IsValidCountryCode(s) {
      assert Upper(s) == s;
    }
  }

  /** Normalisation accepts a code exactly when its upper-case form is valid. */
  lemma NormalizeAcceptsIffUpperValid(s: string)
    ensures ValidateAndNormalize(s).Ok? <==> IsValidCountryCode(Upper(s))
  {
  }

  // The validity test's own cases.

  lemma ValidityExamples()
    ensures IsValidCountryCode("US") && IsValidCountryCode("DE") && IsValidCountryCode("JP")
    ensures !IsValidCountryCode("USA") && !IsValidCountryCode("us")
    ensures !IsValidCountryCode("1") && !IsValidCountryCode("")
  {
  }

  lemma NormalizeExamples()
    ensures ValidateAndNormalize("us") == Ok("US")
    ensures ValidateAndNormalize("DE") == Ok("DE")
    ensures ValidateAndNormalize("jp") == Ok("JP")
    ensures ValidateAndNormalize("USA").Err?
    ensures ValidateAndNormalize("1").Err?
    ensures ValidateAndNormalize("").Err?
  {
    assert Upper("us") == "US";
    assert Upper("DE") == "DE";
    assert Upper("jp") == "JP";
  }
}

=== FILE: errors.dfy ===
/** The service-wide error type (`ApiError`): its variants, the HTTP status
    each one is answered with, its `Display` text and the conversions into it.
    Status codes follow RFC 9110 sections 15.5 and 15.6 (400, 401, 402, 404,
    500) and RFC 6585 section 3 (428 Precondition Required). */
module ApiErrors {
  import opened Text

  newtype i32 = x: int | -0x8000_0000 <= x < 0x8000_0000

  datatype ApiError =
    | NotFound(message: string)
    | InternalServerError(message: string)
    | BadRequest(message: string)
    | Unauthorized(message: string)
    | PaymentRequired(message: string)
    | QuotaExceeded(resource: string, monthlyCount: i32, lifetimeCount: i32,
                    monthlyLimit: i32, lifetimeLimit: i32)
    | RegistrationRequired(message: string, reason: string, suggestedAction: string)
  {
    /** The variants that carry nothing but a message. */
    predicate IsPlainMessage() {
      NotFound? || InternalServerError? || BadRequest? || Unauthorized? || PaymentRequired?
    }
  }

  /** The Rocket `Status` values the variants are answered with. */
  datatype Status =
    | BadRequestStatus
    | UnauthorizedStatus
    | PaymentRequiredStatus
    | NotFoundStatus
    | PreconditionRequiredStatus
    | InternalServerErrorStatus
  {
    function Code(): nat {
      match this
      case BadRequestStatus => 400
      case UnauthorizedStatus => 401
      case PaymentRequiredStatus => 402
      case NotFoundStatus => 404
      case PreconditionRequiredStatus => 428
      case InternalServerErrorStatus => 500
    }
  }

  /** `ApiError::http_status`. Only an internal error is a server-side (5xx)
      answer; every other variant is a client error (4xx), and the two
      payment-related variants share 402. Each other code belongs to exactly
      one variant. */
  function HttpStatus(e: ApiError): (s: Status)
    ensures s.Code() == 500 <==> e.InternalServerError?
    ensures 400 <= s.Code() < 500 <==> !e.InternalServerError?
    ensures s.Code() == 402 <==> e.PaymentRequired? || e.QuotaExceeded?
    ensures s.Code() == 428 <==> e.RegistrationRequired?
    ensures s.Code() == 400 <==> e.BadRequest?
    ensures s.Code() == 401 <==> e.Unauthorized?
    ensures s.Code() == 404 <==> e.NotFound?
  {
    match e
    case NotFound(_) => NotFoundStatus
    case InternalServerError(_) => InternalServerErrorStatus
    case BadRequest(_) => BadRequestStatus
    case Unauthorized(_) => UnauthorizedStatus
    case PaymentRequired(_) => PaymentRequiredStatus
    case QuotaExceeded(_, _, _, _, _) => PaymentRequiredStatus
    case RegistrationRequired(_, _, _) => PreconditionRequiredStatus
  }

  /** `ApiError::status_code`: written out separately in the source, it
      always agrees with the numeric code of `http_status`. */
  function StatusCode(e: ApiError): (c: nat)
    ensures c == HttpStatus(e).Code()
    ensures c in {400, 401, 402, 404, 428, 500}
  {
    match e
    case NotFound(_) => 404
    case InternalServerError(_) => 500
    case BadRequest(_) => 400
    case Unauthorized(_) => 401
    case PaymentRequired(_) => 402
    case QuotaExceeded(_, _, _, _, _) => 402
    case RegistrationRequired(_, _, _) => 428
  }

  const RegistrationSuggestedAction: string := "Please complete registration to continue"

  /** `ApiError::registration_required`: a 428 error whose message and reason
      both name the action that needs a registered account. */
  function RegistrationRequiredFor(action: string): (e: ApiError)
    ensures e.RegistrationRequired?
    ensures StatusCode(e) == 428
    ensures e.message == "Registration required to " + action
    ensures e.reason == "You need to register with your phone number to " + action
    ensures e.suggestedAction == RegistrationSuggestedAction
  {
    RegistrationRequired(
      "Registration required to " + action,
      "You need to register with your phone number to " + action,
      RegistrationSuggestedAction)
  }

  /** The fixed text each variant's `Display` output opens with. */
  function Tag(e: ApiError): string {
    match e
    case NotFound(_) => "Not Found: "
    case InternalServerError(_) => "Internal Server Error: "
    case BadRequest(_) => "Bad Request Error: "
    case Unauthorized(_) => "Unauthorized Error: "
    case PaymentRequired(_) => "Payment Required: "
    case QuotaExceeded(_, _, _, _, _) => "Quota exceeded for '"
    case RegistrationRequired(_, _, _) => "Registration Required: "
  }

  /** What a quota error shows after its resource name: the closing quote,
      then the monthly count and limit, then the lifetime count and limit.
      The closing quote is the only quote in it. */
  function QuotaFigures(monthlyCount: i32, monthlyLimit: i32, lifetimeCount: i32, lifetimeLimit: i32)
    : (q: string)
    ensures |q| > 0 && q[0] == '\''
    ensures forall i | 1 <= i < |q| :: q[i] != '\''
  {
    "': monthly " + (IntToString(monthlyCount as int) + ("/" + (IntToString(monthlyLimit as int)
    + (" ; lifetime " + (IntToString(lifetimeCount as int) + ("/" + IntToString(lifetimeLimit as int)))))))
  }

  /** `impl Display for ApiError`: the variant's tag, then its details; a
      quota error shows the monthly count/limit before the lifetime ones, a
      registration error its message, reason and suggested action joined by
      " - ". */
  function Display(e: ApiError): (r: string)
    ensures |Tag(e)| <= |r| && r[..|Tag(e)|] == Tag(e)
    ensures e.IsPlainMessage() ==> r[|Tag(e)|..] == e.message
    ensures e.RegistrationRequired? ==>
              r == Tag(e) + e.message + " - " + e.reason + " - " + e.suggestedAction
  {
    match e
    case QuotaExceeded(resource, monthlyCount, lifetimeCount, monthlyLimit, lifetimeLimit) =>
      Tag(e) + resource + QuotaFigures(monthlyCount, monthlyLimit, lifetimeCount, lifetimeLimit)
    case RegistrationRequired(message, reason, suggestedAction) =>
      Tag(e) + message + " - " + reason + " - " + suggestedAction
    case _ =>
      Tag(e) + e.message
  }

  /** A quota error's full text: the resource in quotes, then the monthly
      count and limit, then the lifetime count and limit. */
  lemma QuotaExceededDisplay(e: ApiError)
    requires e.QuotaExceeded?
    ensures Display(e) ==
            "Quota exceeded for '" + e.resource
            + "': monthly " + IntToString(e.monthlyCount as int) + "/" + IntToString(e.monthlyLimit as int)
            + " ; lifetime " + IntToString(e.lifetimeCount as int) + "/" + IntToString(e.lifetimeLimit as int)
  {
    var a, b := IntToString(e.monthlyCount as int), IntToString(e.monthlyLimit as int);
    var c, d := IntToString(e.lifetimeCount as int), IntToString(e.lifetimeLimit as int);
    var r6 := "/" + d;
    var r5 := c + r6;
    var r4 := " ; lifetime " + r5;
    var r3 := b + r4;
    var r2 := "/" + r3;
    var r1 := a + r2;
    var p0 := Tag(e) + e.resource;
    assert Display(e) == p0 + ("': monthly " + r1);
    ConcatAssoc(p0, "': monthly ", r1);
    var p1 := p0 + "': monthly ";
    ConcatAssoc(p1, a, r2);
    ConcatAssoc(p1 + a, "/", r3);
    ConcatAssoc(p1 + a + "/", b, r4);
    ConcatAssoc(p1 + a + "/" + b, " ; lifetime ", r5);
    ConcatAssoc(p1 + a + "/" + b + " ; lifetime ", c, r6);
    ConcatAssoc(p1 + a + "/" + b + " ; lifetime " + c, "/", d);
  }

  /** The four numbers can be read back from the quota figures. */
  lemma QuotaFiguresInjective(m1: i32, ml1: i32, l1: i32, ll1: i32, m2: i32, ml2: i32, l2: i32, ll2: i32)
    requires QuotaFigures(m1, ml1, l1, ll1) == QuotaFigures(m2, ml2, l2, ll2)
    ensures m1 == m2 && ml1 == ml2 && l1 == l2 && ll1 == ll2
  {
    var a1, b1, c1, d1 := IntToString(m1 as int), IntToString(ml1 as int), IntToString(l1 as int), IntToString(ll1 as int);
    var a2, b2, c2, d2 := IntToString(m2 as int), IntToString(ml2 as int), IntToString(l2 as int), IntToString(ll2 as int);
    var w1, w2 := "/" + d1, "/" + d2;
    var v1, v2 := " ; lifetime " + (c1 + w1), " ; lifetime " + (c2 + w2);
    var u1, u2 := "/" + (b1 + v1), "/" + (b2 + v2);
    CancelPrefix("': monthly ", a1 + u1, a2 + u2);
    SplitAtFirst(a1, u1, a2, u2, '/');
    assert b1 + v1 == u1[1..] == u2[1..] == b2 + v2;
    SplitAtFirst(b1, v1, b2, v2, ' ');
    CancelPrefix(" ; lifetime ", c1 + w1, c2 + w2);
    SplitAtFirst(c1, w1, c2, w2, '/');
    assert d1 == w1[1..] == w2[1..] == d2;
    IntToStringInjective(m1 as int, m2 as int);
    IntToStringInjective(ml1 as int, ml2 as int);
    IntToStringInjective(l1 as int, l2 as int);
    IntToStringInjective(ll1 as int, ll2 as int);
  }

  /** A quota error's text determines the error: the resource name ends at
      the last quote, and the numbers after it can be read back. */
  lemma QuotaDisplayDeterminesFields(e1: ApiError, e2: ApiError)
    requires e1.QuotaExceeded? && e2.QuotaExceeded?
    requires Display(e1) == Display(e2)
    ensures e1 == e2
  {
    var q1 := QuotaFigures(e1.monthlyCount, e1.monthlyLimit, e1.lifetimeCount, e1.lifetimeLimit);
    var q2 := QuotaFigures(e2.monthlyCount, e2.monthlyLimit, e2.lifetimeCount, e2.lifetimeLimit);
    var h1, h2 := Tag(e1) + e1.resource, Tag(e2) + e2.resource;
    SplitAtLastMark(h1, q1, h2, q2, '\'');
    assert e1.resource == h1[|Tag(e1)|..] == h2[|Tag(e2)|..] == e2.resource;
    QuotaFiguresInjective(e1.monthlyCount, e1.monthlyLimit, e1.lifetimeCount, e1.lifetimeLimit,
                          e2.monthlyCount, e2.monthlyLimit, e2.lifetimeCount, e2.lifetimeLimit);
  }

  /** The text of `registration_required(action)`, as a client sees it. */
  lemma RegistrationRequiredDisplay(action: string)
    ensures Display(RegistrationRequiredFor(action)) ==
            "Registration Required: " + ("Registration required to " + action)
            + " - " + ("You need to register with your phone number to " + action)
            + " - " + "Please complete registration to continue"
  {
  }

  /** The first character of the rendered text already names the variant:
      two errors that display alike are of the same variant. */
  lemma DisplaySeparatesVariants(e1: ApiError, e2: ApiError)
    requires Display(e1) == Display(e2)
    ensures Tag(e1) == Tag(e2)
  {
    assert Display(e1)[0] == Tag(e1)[0];
    assert Display(e2)[0] == Tag(e2)[0];
  }

  /** For the message-only variants the rendering loses nothing. */
  lemma DisplayInjectiveOnMessages(e1: ApiError, e2: ApiError)
    requires e1.IsPlainMessage() && e2.IsPlainMessage()
    requires Display(e1) == Display(e2)
    ensures e1 == e2
  {
    DisplaySeparatesVariants(e1, e2);
    assert e1.message == Display(e1)[|Tag(e1)|..];
  }

  /** `impl From<String> for ApiError`: any bare string becomes a 500 whose
      rendered text carries the string after a fixed explanation. */
  function FromString(message: string): (e: ApiError)
    ensures e.InternalServerError?
    ensures StatusCode(e) == 500
    ensures Display(e) == "Internal Server Error: " + "Generic conversion error: " + message
  {
    var e := InternalServerError("Generic conversion error: " + message);
    assert Display(e) == "Internal Server Error: " + e.message;
    e
  }

  /** `ApiError::from` and `From<Box<dyn Error>>`: a foreign error becomes a
      500 carrying that error's own display text unchanged. */
  function FromErrorDisplay(shown: string): (e: ApiError)
    ensures e.InternalServerError?
    ensures StatusCode(e) == 500
    ensures Display(e) == "Internal Server Error: " + shown
  {
    InternalServerError(shown)
  }
}

=== FILE: headers.dfy ===
/** `extract_client_ip_from_headers`: the client address a proxy chain
    reports, taken from the first of four headers that carries a usable
    value. Header names compare without regard to ASCII case, as Rocket's
    `HeaderMap` does. */
module Headers {
  import opened Wrappers
  import opened Text

  datatype Header = Header(name: string, value: string)

  /** The request's headers in the order they were added. */
  type HeaderMap = seq<Header>

  /** ASCII case-insensitive equality of header names. */
  predicate SameName(a: string, b: string) {
    |a| == |b| && Upper(a) == Upper(b)
  }

  /** `HeaderMap::get_one`: the first value stored under `name`. */
  function GetOne(headers: HeaderMap, name: string): (r: Option<string>)
    ensures r.None? <==> forall i | 0 <= i < |headers| :: !SameName(headers[i].name, name)
    ensures r.Some? ==> exists i | 0 <= i < |headers| ::
              && SameName(headers[i].name, name)
              && headers[i].value == r.value
              && forall j | 0 <= j < i :: !SameName(headers[j].name, name)
  {
    if |headers| == 0 then None
    else if SameName(headers[0].name, name) then Some(headers[0].value)
    else
      var r := GetOne(headers[1..], name);
      assert forall i | 1 <= i < |headers| :: headers[i] == headers[1..][i - 1];
      r
  }

  /** `value.split(',').next()`: everything before the first comma (the
      whole value when there is none; never absent). */
  function FirstSegment(s: string): (r: string)
    ensures |r| <= |s| && r == s[..|r|]
    ensures forall i | 0 <= i < |r| :: r[i] != ','
    ensures |r| < |s| ==> s[|r|] == ','
  {
    if |s| == 0 || s[0] == ',' then ""
    else [s[0]] + FirstSegment(s[1..])
  }

  /** A value the source accepts: not empty and not the literal "unknown". */
  predicate IsUsable(v: string) {
    v != "" && v != "unknown"
  }

  const ForwardedFor: string := "X-Forwarded-For"
  const RealIp: string := "X-Real-IP"
  const CloudflareIp: string := "CF-Connecting-IP"
  const ClientIpHeader: string := "X-Client-IP"

  /** What a header contributes: its value with the surrounding whitespace
      cut off, and for X-Forwarded-For only the first comma-separated
      segment so cut, which holds no comma. */
  function Candidate(headers: HeaderMap, name: string): (c: Option<string>)
    ensures c.Some? <==> GetOne(headers, name).Some?
    ensures c.Some? ==> Trim(c.value) == c.value
    ensures c.Some? && name != ForwardedFor ==> IsTrimOf(c.value, GetOne(headers, name).value)
    ensures c.Some? && name == ForwardedFor ==>
              && IsTrimOf(c.value, FirstSegment(GetOne(headers, name).value))
              && ',' !in c.value
  {
    match GetOne(headers, name)
    case None => None
    case Some(v) =>
      var raw := if name == ForwardedFor then FirstSegment(v) else v;
      TrimIdempotent(raw);
      TrimIsInfix(raw);
      if name == ForwardedFor then
        TrimKeepsAbsence(raw, ',');
        Some(Trim(raw))
      else
        Some(Trim(raw))
  }

  predicate Accepts(c: Option<string>) {
    c.Some? && IsUsable(c.value)
  }

  /** `extract_client_ip_from_headers`. An unusable X-Forwarded-For moves on
      to the next header, never to the next segment of the same header. */
  function ClientIp(headers: HeaderMap): (r: Option<string>)
    ensures r.Some? ==> IsUsable(r.value) && r.value == Trim(r.value)
    ensures r.None? <==>
              && !Accepts(Candidate(headers, ForwardedFor))
              && !Accepts(Candidate(headers, RealIp))
              && !Accepts(Candidate(headers, CloudflareIp))
              && !Accepts(Candidate(headers, ClientIpHeader))
  {
    var forwarded := Candidate(headers, ForwardedFor);
    var nginx := Candidate(headers, RealIp);
    var cloudflare := Candidate(headers, CloudflareIp);
    var client := Candidate(headers, ClientIpHeader);
    if Accepts(forwarded) then forwarded
    else if Accepts(nginx) then nginx
    else if Accepts(cloudflare) then cloudflare
    else if Accepts(client) then client
    else None
  }

  /** The header names in the order they are consulted. */
  const Priority: seq<string> := [ForwardedFor, RealIp, CloudflareIp, ClientIpHeader]

  /** Reference reading: the first acceptable candidate of a list. */
  function FirstAccepted(cs: seq<Option<string>>): (r: Option<string>)
    ensures r.Some? <==> exists i | 0 <= i < |cs| :: Accepts(cs[i])
    ensures r.Some? ==> exists i | 0 <= i < |cs| ::
              cs[i] == r && forall j | 0 <= j < i :: !Accepts(cs[j])
  {
    if |cs| == 0 then None
    else if Accepts(cs[0]) then cs[0]
    else
      var r := FirstAccepted(cs[1..]);
      assert forall i | 1 <= i < |cs| :: cs[i] == cs[1..][i - 1];
      r
  }

  /** The extraction is exactly "first acceptable candidate in priority order". */
  lemma ClientIpIsFirstAccepted(headers: HeaderMap)
    ensures ClientIp(headers) ==
            FirstAccepted([Candidate(headers, ForwardedFor), Candidate(headers, RealIp),
                           Candidate(headers, CloudflareIp), Candidate(headers, ClientIpHeader)])
  {
    var c0, c1, c2, c3 := Candidate(headers, ForwardedFor), Candidate(headers, RealIp),
                          Candidate(headers, CloudflareIp), Candidate(headers, ClientIpHeader);
    FirstAcceptedCons(c3, []);
    FirstAcceptedCons(c2, [c3]);
    FirstAcceptedCons(c1, [c2, c3]);
    FirstAcceptedCons(c0, [c1, c2, c3]);
  }

  /** One step of the reference reading. */
  lemma FirstAcceptedCons(c: Option<string>, cs: seq<Option<string>>)
    ensures FirstAccepted([c] + cs) == if Accepts(c) then c else FirstAccepted(cs)
  {
    assert ([c] + cs)[1..] == cs;
  }

  /** Headers other than the four consulted ones never matter. */
  lemma UnrelatedHeadersIgnored(headers: HeaderMap, extra: Header)
    requires !SameName(extra.name, ForwardedFor) && !SameName(extra.name, RealIp)
    requires !SameName(extra.name, CloudflareIp) && !SameName(extra.name, ClientIpHeader)
    ensures ClientIp([extra] + headers) == ClientIp(headers)
  {
    assert ([extra] + headers)[1..] == headers;
  }

  // The extraction's own test cases, built from small facts.

  lemma FirstSegmentWhole(s: string)
    requires forall i | 0 <= i < |s| :: s[i] != ','
    ensures FirstSegment(s) == s
  {
  }

  lemma FirstSegmentBeforeComma(a: string, b: string)
    requires forall i | 0 <= i < |a| :: a[i] != ','
    ensures FirstSegment(a + "," + b) == a
  {
    var s := a + "," + b;
    assert s[|a|] == ',';
    assert s[..|a|] == a;
  }

  /** A lone X-Forwarded-For header yields its trimmed first segment, if usable. */
  lemma LoneForwardedFor(v: string)
    ensures var c := Trim(FirstSegment(v));
            ClientIp([Header(ForwardedFor, v)]) == if IsUsable(c) then Some(c) else None
  {
    var h := [Header(ForwardedFor, v)];
    assert GetOne(h, ForwardedFor) == Some(v);
    assert GetOne(h, RealIp) == None;
    assert GetOne(h, CloudflareIp) == None;
    assert GetOne(h, ClientIpHeader) == None;
  }

  /** A lone X-Real-IP header yields its trimmed value, if usable. */
  lemma LoneRealIp(v: string)
    ensures ClientIp([Header(RealIp, v)]) == if IsUsable(Trim(v)) then Some(Trim(v)) else None
  {
    var h := [Header(RealIp, v)];
    assert GetOne(h, ForwardedFor) == None;
    assert GetOne(h, RealIp) == Some(v);
    assert GetOne(h, CloudflareIp) == None;
    assert GetOne(h, ClientIpHeader) == None;
  }

  const SampleIp: string := "192.168.1.1"

  lemma SampleIpFacts()
    ensures forall i | 0 <= i < |SampleIp| :: SampleIp[i] != ','
    ensures Trim(SampleIp) == SampleIp
    ensures IsUsable(SampleIp)
  {
    TrimOfTrimmed(SampleIp);
  }

  lemma ForwardedForSingleExample()
    ensures ClientIp([Header(ForwardedFor, SampleIp)]) == Some(SampleIp)
  {
    SampleIpFacts();
    FirstSegmentWhole(SampleIp);
    LoneForwardedFor(SampleIp);
  }

  lemma ForwardedForListExample()
    ensures ClientIp([Header(ForwardedFor, SampleIp + ", 10.0.0.1, 172.16.0.1")]) == Some(SampleIp)
  {
    var rest := " 10.0.0.1, 172.16.0.1";
    SampleIpFacts();
    assert SampleIp + ", 10.0.0.1, 172.16.0.1" == SampleIp + "," + rest;
    FirstSegmentBeforeComma(SampleIp, rest);
    LoneForwardedFor(SampleIp + "," + rest);
  }

  const ProxyIp: string := "203.0.113.1"

  lemma ProxyIpFacts()
    ensures Trim(ProxyIp) == ProxyIp
    ensures IsUsable(ProxyIp)
  {
    TrimOfTrimmed(ProxyIp);
  }

  lemma RealIpExample()
    ensures ClientIp([Header(RealIp, ProxyIp)]) == Some(ProxyIp)
  {
    ProxyIpFacts();
    LoneRealIp(ProxyIp);
  }

  lemma NoHeadersExample()
    ensures ClientIp([]) == None
  {
  }

  /** An "unknown" first hop is not skipped over to the next hop: with no
      other header the result is None even though a later hop is an address. */
  lemma UnknownFirstHopExample()
    ensures ClientIp([Header(ForwardedFor, "unknown, 10.0.0.1")]) == None
  {
    assert "unknown, 10.0.0.1" == "unknown" + "," + " 10.0.0.1";
    FirstSegmentBeforeComma("unknown", " 10.0.0.1");
    TrimOfTrimmed("unknown");
    LoneForwardedFor("unknown" + "," + " 10.0.0.1");
  }

  /** Header names match whatever their letter case. */
  lemma LowerCaseNameExample()
    ensures ClientIp([Header("x-real-ip", ProxyIp)]) == Some(ProxyIp)
  {
    var h := [Header("x-real-ip", ProxyIp)];
    assert Upper("x-real-ip") == Upper(RealIp);
    assert GetOne(h, ForwardedFor) == None;
    assert GetOne(h, RealIp) == Some(ProxyIp);
    assert GetOne(h, CloudflareIp) == None;
    assert GetOne(h, ClientIpHeader) == None;
    ProxyIpFacts();
  }
}

=== FILE: location.dfy ===
/** The geolocation record, the service configuration and the record handed
    out when a provider has nothing better to say. */
module Location {
  import opened Wrappers

  /** An `f64` coordinate, carried through untouched: only its bit pattern
      matters, since no arithmetic is done on it. */
  datatype F64 = F64(bits: bv64)

  /** `LocationInfo`. */
  datatype LocationInfo = LocationInfo(
    countryCode: string,
    countryName: string,
    city: Option<string>,
    region: Option<string>,
    latitude: Option<F64>,
    longitude: Option<F64>,
    timezone: Option<string>)
  {
    /** No field beyond the country is known. */
    predicate HasNoDetails() {
      city.None? && region.None? && latitude.None? && longitude.None? && timezone.None?
    }
  }

  /** `GeolocationService::default_location`: the United States with no
      further detail. */
  const DefaultLocation: LocationInfo :=
    LocationInfo("US", "United States", None, None, None, None, None)

  /** `GeolocationConfig`. Widths (`u64`, `usize`) are not modelled: the
      values are unbounded naturals. */
  datatype GeolocationConfig = GeolocationConfig(
    apiKey: string,
    serviceUrl: string,
    timeoutSeconds: nat,
    cacheTtlSeconds: nat,
    maxCacheEntries: nat)

  /** `GeolocationConfig::default()`. */
  const DefaultConfig: GeolocationConfig :=
    GeolocationConfig("", "https://api.maxmind.com/geoip/v2.1/city", 5, 3600, 10000)

  /** The clock counts nanoseconds. */
  const NanosPerSecond: nat := 1_000_000_000

  /** `Duration::from_secs(cache_ttl_seconds)` in clock units. */
  function TtlNanos(config: GeolocationConfig): (ttl: nat)
    ensures ttl == 0 <==> config.cacheTtlSeconds == 0
    ensures ttl / NanosPerSecond == config.cacheTtlSeconds && ttl % NanosPerSecond == 0
  {
    config.cacheTtlSeconds * NanosPerSecond
  }
}

=== FILE: phone.dfy ===
/** `get_country_code_from_phone_number`: a static prefix table consulted
    with the first characters of the number once its leading '+' signs are
    gone. Rust slices strings by UTF-8 byte offsets, so the key is chosen by
    the byte widths of the first characters. */
module Phone {
  import opened Text

  /** The table's answers. The constants `UK` and `KSA` name strings defined
      outside this model, so they are kept symbolic. */
  datatype PhoneCountry = UK | KSA | Unknown

  /** `str::trim_start_matches('+')`. */
  function StripPlus(s: string): (r: string)
    ensures |r| <= |s| && r == s[|s| - |r|..]
    ensures forall i | 0 <= i < |s| - |r| :: s[i] == '+'
    ensures |r| > 0 ==> r[0] != '+'
  {
    if |s| > 0 && s[0] == '+' then
      var r := StripPlus(s[1..]);
      assert forall i | 1 <= i < |s| - |r| :: s[i] == s[1..][i - 1];
      r
    else s
  }

  /** The key is only defined when `&clean[0..1]` can be taken: the
      stripped number is not empty and its first character is one byte wide.
      That slice is the argument of `unwrap_or`, so it is evaluated whatever
      `get(0..2)` returns; on any other input the source panics. */
  predicate KeyDefined(phone: string) {
    var clean := StripPlus(phone);
    |clean| > 0 && IsAscii(clean[0])
  }

  /** `clean.get(0..2).unwrap_or(&clean[0..1])`: the first two bytes when
      byte 2 is a character boundary, else the first byte. With a one-byte
      first character, byte 2 is a boundary exactly when the second
      character exists and is one byte wide too. */
  function PrefixKey(clean: string): (key: string)
    requires |clean| > 0 && IsAscii(clean[0])
    ensures 1 <= |key| <= 2 && |key| <= |clean| && key == clean[..|key|]
    ensures |key| == 2 <==> |clean| >= 2 && IsAscii(clean[1])
  {
    if |clean| >= 2 && IsAscii(clean[1]) then clean[..2]
    else clean[..1]
  }

  /** The table lookup itself: "44" and "966" are the only entries. */
  function TableLookup(key: string): PhoneCountry {
    if key == "44" then UK
    else if key == "966" then KSA
    else Unknown
  }

  /** The lookup as written: the key has at most two characters. */
  function CountryFromPhoneAsWritten(phone: string): (c: PhoneCountry)
    requires KeyDefined(phone)
    ensures var clean := StripPlus(phone);
            c == UK <==> |clean| >= 2 && clean[..2] == "44"
  {
    TableLookup(PrefixKey(StripPlus(phone)))
  }

  /** The "966" entry is unreachable: no number is ever reported as KSA. */
  lemma KsaNeverReturned(phone: string)
    requires KeyDefined(phone)
    ensures CountryFromPhoneAsWritten(phone) != KSA
  {
  }

  /** Stripping stops at the first character that is not '+'. */
  lemma StripPlusOnce(s: string)
    requires |s| > 0 && s[0] != '+'
    ensures StripPlus(s) == s && StripPlus("+" + s) == s
  {
    assert ("+" + s)[1..] == s;
  }

  /** A further leading '+' changes nothing. */
  lemma StripPlusMore(s: string)
    ensures StripPlus("+" + s) == StripPlus(s)
  {
    assert ("+" + s)[1..] == s;
  }

  lemma SaudiNumberReportedUnknown()
    ensures KeyDefined("+966501234567")
    ensures CountryFromPhoneAsWritten("+966501234567") == Unknown
  {
    StripPlusOnce("966501234567");
    assert "+966501234567" == "+" + "966501234567";
  }

  predicate StartsWith(s: string, prefix: string) {
    |prefix| <= |s| && s[..|prefix|] == prefix
  }

  /** The lookup as the table means it: each entry matches the numbers that
      begin with it. It is total, since prefix tests need no slicing. */
  function CountryFromPhone(phone: string): (c: PhoneCountry)
    ensures var clean := StripPlus(phone);
            && (c == UK <==> StartsWith(clean, "44"))
            && (c == KSA <==> StartsWith(clean, "966"))
  {
    var clean := StripPlus(phone);
    if StartsWith(clean, "44") then UK
    else if StartsWith(clean, "966") then KSA
    else Unknown
  }

  /** Wherever the code as written gives an answer, the corrected lookup
      differs from it only on numbers that begin with 966. */
  lemma CorrectedAgreesOutsideKsa(phone: string)
    requires KeyDefined(phone)
    ensures !StartsWith(StripPlus(phone), "966") ==>
              CountryFromPhone(phone) == CountryFromPhoneAsWritten(phone)
    ensures StartsWith(StripPlus(phone), "966") ==>
              CountryFromPhone(phone) == KSA && CountryFromPhoneAsWritten(phone) == Unknown
  {
  }

  lemma UkNumberExample()
    ensures CountryFromPhone("+447700900123") == UK
  {
    StripPlusOnce("447700900123");
    assert "+447700900123" == "+" + "447700900123";
  }

  lemma SaudiNumberExample()
    ensures CountryFromPhone("+966501234567") == KSA
  {
    StripPlusOnce("966501234567");
    assert "+966501234567" == "+" + "966501234567";
  }

  lemma OtherNumberExample()
    ensures CountryFromPhone("+15550100") == Unknown
  {
    StripPlusOnce("15550100");
    assert "+15550100" == "+" + "15550100";
  }

  /** A United Kingdom number without its '+'. */
  const UkDigits: string := "447700900123"

  /** Every leading '+' goes, not just the first: "++447700900123" is UK. */
  lemma DoublePlusExample()
    ensures KeyDefined("+" + ("+" + UkDigits))
    ensures CountryFromPhoneAsWritten("+" + ("+" + UkDigits)) == UK
  {
    StripPlusOnce(UkDigits);
    StripPlusMore("+" + UkDigits);
  }
}

=== FILE: providers.dfy ===
/** The two upstream geolocation providers and how their answers become a
    `LocationInfo` or an `ApiError`: MaxMind GeoIP2 (used only with a real
    API key) and the free ip-api.com service behind it. A provider call is
    an abstract reply: a transport failure, or an HTTP status with a body
    that decoded or did not. */
module Providers {
  import opened Wrappers
  import opened Text
  import opened ApiErrors
  import opened Location

  /** The codes an HTTP status line can carry. */
  type HttpStatusCode = n: nat | 100 <= n < 1000 witness 200

  /** `StatusCode::is_success`. */
  predicate IsSuccess(status: HttpStatusCode) {
    200 <= status < 300
  }

  /** The outcome of decoding a JSON body; `reason` is the decoder's message. */
  datatype Decoded<T> = Malformed(reason: string) | WellFormed(value: T)

  /** What a provider call yields: the transport error's display text, or a
      status and the decoded body. */
  datatype HttpReply<T> =
    | TransportFailure(shown: string)
    | Reply(status: HttpStatusCode, body: Decoded<T>)

  type Names = map<string, string>

  datatype MaxMindCountry = MaxMindCountry(isoCode: string, names: Names)
  datatype MaxMindCity = MaxMindCity(names: Names)
  datatype MaxMindLocation = MaxMindLocation(latitude: Option<F64>, longitude: Option<F64>, timeZone: Option<string>)
  datatype MaxMindSubdivision = MaxMindSubdivision(names: Names)

  /** `MaxMindResponse`: only the country is mandatory. */
  datatype MaxMindResponse = MaxMindResponse(
    country: MaxMindCountry,
    city: Option<MaxMindCity>,
    location: Option<MaxMindLocation>,
    subdivisions: Option<seq<MaxMindSubdivision>>)

  /** `FallbackApiResponse`, the ip-api.com body. */
  datatype FallbackApiResponse = FallbackApiResponse(
    status: string,
    country: string,
    countryCode: string,
    region: string,
    regionName: string,
    city: string,
    zip: string,
    lat: F64,
    lon: F64,
    timezone: string,
    isp: string,
    org: string,
    asName: string,
    query: string,
    message: Option<string>)

  /** `names.get("en").cloned()`. */
  function EnglishName(names: Names): Option<string> {
    if "en" in names then Some(names["en"]) else None
  }

  /** The first subdivision, if the list is present and not empty. */
  function FirstSubdivision(subdivisions: Option<seq<MaxMindSubdivision>>): Option<MaxMindSubdivision> {
    match subdivisions
    case Some(list) => if |list| > 0 then Some(list[0]) else None
    case None => None
  }

  /** `convert_maxmind_response`. */
  function ConvertMaxMind(response: MaxMindResponse): (loc: LocationInfo)
    ensures loc.countryCode == response.country.isoCode
    ensures "en" in response.country.names ==> loc.countryName == response.country.names["en"]
    ensures "en" !in response.country.names ==> loc.countryName == response.country.isoCode
    ensures loc.city.Some? <==> response.city.Some? && "en" in response.city.value.names
    ensures loc.city.Some? ==> loc.city.value == response.city.value.names["en"]
    ensures loc.region.Some? <==>
              && response.subdivisions.Some?
              && |response.subdivisions.value| > 0
              && "en" in response.subdivisions.value[0].names
    ensures loc.region.Some? ==> loc.region.value == response.subdivisions.value[0].names["en"]
    ensures response.location.None? ==> loc.latitude.None? && loc.longitude.None? && loc.timezone.None?
    ensures response.location.Some? ==>
              && loc.latitude == response.location.value.latitude
              && loc.longitude == response.location.value.longitude
              && loc.timezone == response.location.value.timeZone
  {
    var countryCode := response.country.isoCode;
    var countryName := EnglishName(response.country.names).GetOr(countryCode);
    var city := match response.city
      case Some(c) => EnglishName(c.names)
      case None => None;
    var region := match FirstSubdivision(response.subdivisions)
      case Some(s) => EnglishName(s.names)
      case None => None;
    match response.location
    case Some(l) => LocationInfo(countryCode, countryName, city, region, l.latitude, l.longitude, l.timeZone)
    case None => LocationInfo(countryCode, countryName, city, region, None, None, None)
  }

  /** Only the first subdivision is ever consulted: appending further ones
      changes nothing. */
  lemma ConvertReadsFirstSubdivisionOnly(response: MaxMindResponse, more: seq<MaxMindSubdivision>)
    requires response.subdivisions.Some? && |response.subdivisions.value| > 0
    ensures ConvertMaxMind(response.(subdivisions := Some(response.subdivisions.value + more)))
            == ConvertMaxMind(response)
  {
    var longer := response.(subdivisions := Some(response.subdivisions.value + more));
    assert (response.subdivisions.value + more)[0] == response.subdivisions.value[0];
  }

  /** `fetch_from_maxmind`: 404 means "unknown address" and yields the
      default location; every other failure is an internal error. */
  function FetchFromMaxMind(reply: HttpReply<MaxMindResponse>): (r: Result<LocationInfo, ApiError>)
    ensures r.Ok? <==> reply.Reply? && (reply.status == 404 || (IsSuccess(reply.status) && reply.body.WellFormed?))
    ensures r.Ok? && reply.status == 404 ==> r.value == DefaultLocation
    ensures r.Ok? && reply.status != 404 ==> r.value == ConvertMaxMind(reply.body.value)
    ensures r.Err? ==> r.error.InternalServerError?
  {
    match reply
    case TransportFailure(shown) =>
      Err(InternalServerError("Geolocation API request failed: " + shown))
    case Reply(status, body) =>
      if !IsSuccess(status) then
        if status == 401 then Err(InternalServerError("Geolocation service authentication failed"))
        else if status == 404 then Ok(DefaultLocation)
        else if status == 429 then Err(InternalServerError("Geolocation service rate limited"))
        else Err(InternalServerError("Geolocation service error: " + NatToString(status)))
      else
        match body
        case Malformed(reason) => Err(InternalServerError("Failed to parse geolocation response: " + reason))
        case WellFormed(response) => Ok(ConvertMaxMind(response))
  }

  /** The MaxMind error texts: authentication and rate limiting have their
      own, other unsuccessful statuses are quoted by number, and transport
      and decoding failures quote the underlying error. */
  lemma MaxMindErrorMessages(reply: HttpReply<MaxMindResponse>)
    ensures reply.TransportFailure? ==>
              FetchFromMaxMind(reply).error.message == "Geolocation API request failed: " + reply.shown
    ensures reply.Reply? && reply.status == 401 ==>
              FetchFromMaxMind(reply).error.message == "Geolocation service authentication failed"
    ensures reply.Reply? && reply.status == 429 ==>
              FetchFromMaxMind(reply).error.message == "Geolocation service rate limited"
    ensures reply.Reply? && !IsSuccess(reply.status) && reply.status !in {401, 404, 429} ==>
              FetchFromMaxMind(reply).error.message == "Geolocation service error: " + NatToString(reply.status)
    ensures reply.Reply? && IsSuccess(reply.status) && reply.body.Malformed? ==>
              FetchFromMaxMind(reply).error.message == "Failed to parse geolocation response: " + reply.body.reason
  {
  }

  /** The ip-api.com body's own success marker. */
  predicate ReportsSuccess(body: FallbackApiResponse) {
    body.status == "success"
  }

  /** `fetch_from_fallback_service`: an unsuccessful status or a body that
      reports failure degrade to the default location; only transport and
      decoding failures are errors. */
  function FetchFromFallback(reply: HttpReply<FallbackApiResponse>): (r: Result<LocationInfo, ApiError>)
    ensures r.Err? <==> reply.TransportFailure? || (IsSuccess(reply.status) && reply.body.Malformed?)
    ensures r.Err? ==> r.error.InternalServerError?
    ensures r.Ok? && !(IsSuccess(reply.status) && ReportsSuccess(reply.body.value)) ==>
              r.value == DefaultLocation
    ensures r.Ok? && IsSuccess(reply.status) && ReportsSuccess(reply.body.value) ==>
              && !r.value.HasNoDetails()
              && r.value.countryCode == reply.body.value.countryCode
              && r.value.countryName == reply.body.value.country
              && r.value.city == Some(reply.body.value.city)
              && r.value.region == Some(reply.body.value.regionName)
              && r.value.latitude == Some(reply.body.value.lat)
              && r.value.longitude == Some(reply.body.value.lon)
              && r.value.timezone == Some(reply.body.value.timezone)
  {
    match reply
    case TransportFailure(shown) =>
      Err(InternalServerError("Fallback geolocation API request failed: " + shown))
    case Reply(status, body) =>
      if !IsSuccess(status) then Ok(DefaultLocation)
      else
        match body
        case Malformed(reason) =>
          Err(InternalServerError("Failed to parse fallback geolocation response: " + reason))
        case WellFormed(answer) =>
          if !ReportsSuccess(answer) then Ok(DefaultLocation)
          else Ok(LocationInfo(answer.countryCode, answer.country, Some(answer.city),
                               Some(answer.regionName), Some(answer.lat), Some(answer.lon),
                               Some(answer.timezone)))
  }

  /** The fallback's error texts quote the underlying error. */
  lemma FallbackErrorMessages(reply: HttpReply<FallbackApiResponse>)
    ensures reply.TransportFailure? ==>
              FetchFromFallback(reply).error.message == "Fallback geolocation API request failed: " + reply.shown
    ensures reply.Reply? && IsSuccess(reply.status) && reply.body.Malformed? ==>
              FetchFromFallback(reply).error.message
              == "Failed to parse fallback geolocation response: " + reply.body.reason
  {
  }

  /** The default location is exactly the answer that carries no detail:
      an `Ok` with details came from a body reporting success. */
  lemma FallbackDetailsOnlyOnSuccess(reply: HttpReply<FallbackApiResponse>)
    requires FetchFromFallback(reply).Ok?
    ensures FetchFromFallback(reply).value.HasNoDetails() <==>
              !(reply.Reply? && IsSuccess(reply.status) && ReportsSuccess(reply.body.value))
  {
  }

  datatype Provider = MaxMind | IpApi

  /** One outgoing request: whom it went to and the URL it asked for. */
  datatype Call = Call(provider: Provider, url: string)

  /** The request URLs: MaxMind's is the configured base URL, ip-api.com's is fixed. */
  function MaxMindUrl(config: GeolocationConfig, ip: string): string {
    config.serviceUrl + "/" + ip
  }

  function FallbackUrl(ip: string): string {
    "http://ip-api.com/json/" + ip
  }

  /** The keys that mean "no MaxMind account": none, and the two
      placeholders shipped in sample configurations. */
  const PlaceholderKeys: set<string> := {"", "demo_key", "your_maxmind_api_key"}

  /** The gate of `fetch_from_api`: a key that is neither empty nor one of
      the two placeholder values. */
  function HasRealApiKey(key: string): (usable: bool)
    ensures usable <==> key !in PlaceholderKeys
    ensures usable ==> |key| > 0
  {
    key != "" && key != "demo_key" && key != "your_maxmind_api_key"
  }

  /** The result of `fetch_from_api` together with the calls it made, in order. */
  datatype Fetched = Fetched(result: Result<LocationInfo, ApiError>, calls: seq<Call>)

  /** `fetch_from_api`: MaxMind first when the key is real and its answer is
      kept if it is `Ok`; otherwise (no key, or any MaxMind error) the
      ip-api.com answer is returned as it is. */
  function FetchFromApi(config: GeolocationConfig, ip: string,
                        maxMind: HttpReply<MaxMindResponse>,
                        fallback: HttpReply<FallbackApiResponse>): (f: Fetched)
    ensures 1 <= |f.calls| <= 2
    ensures f.calls[0].provider == MaxMind <==> HasRealApiKey(config.apiKey)
    ensures forall i | 1 <= i < |f.calls| :: f.calls[i].provider == IpApi
    ensures HasRealApiKey(config.apiKey) ==> f.calls[0] == Call(MaxMind, MaxMindUrl(config, ip))
    ensures f.calls[|f.calls| - 1].provider == IpApi <==>
              !(HasRealApiKey(config.apiKey) && FetchFromMaxMind(maxMind).Ok?)
    ensures f.calls[|f.calls| - 1].provider == IpApi ==>
              f.calls[|f.calls| - 1] == Call(IpApi, FallbackUrl(ip)) && f.result == FetchFromFallback(fallback)
    ensures f.calls[|f.calls| - 1].provider == MaxMind ==>
              |f.calls| == 1 && f.result == FetchFromMaxMind(maxMind) && f.result.Ok?
  {
    var tryMaxMind := HasRealApiKey(config.apiKey);
    var first := if tryMaxMind then FetchFromMaxMind(maxMind) else Err(InternalServerError(""));
    if tryMaxMind && first.Ok? then Fetched(first, [Call(MaxMind, MaxMindUrl(config, ip))])
    else
      var before := if tryMaxMind then [Call(MaxMind, MaxMindUrl(config, ip))] else [];
      Fetched(FetchFromFallback(fallback), before + [Call(IpApi, FallbackUrl(ip))])
  }

  /** MaxMind's errors never reach the caller: an error always comes from
      ip-api.com, after it was called. */
  lemma FetchErrorsComeFromFallback(config: GeolocationConfig, ip: string,
                                    maxMind: HttpReply<MaxMindResponse>,
                                    fallback: HttpReply<FallbackApiResponse>)
    ensures var f := FetchFromApi(config, ip, maxMind, fallback);
            f.result.Err? ==> f.result == FetchFromFallback(fallback) && Call(IpApi, FallbackUrl(ip)) in f.calls
  {
  }

  /** Without a real key MaxMind's reply is irrelevant and only ip-api.com is asked. */
  lemma FetchWithoutKeyIgnoresMaxMind(config: GeolocationConfig, ip: string,
                                      m1: HttpReply<MaxMindResponse>, m2: HttpReply<MaxMindResponse>,
                                      fallback: HttpReply<FallbackApiResponse>)
    requires !HasRealApiKey(config.apiKey)
    ensures FetchFromApi(config, ip, m1, fallback) == FetchFromApi(config, ip, m2, fallback)
    ensures FetchFromApi(config, ip, m1, fallback).calls == [Call(IpApi, FallbackUrl(ip))]
  {
  }

  /** The default configuration has an empty key, so it never calls MaxMind. */
  lemma DefaultConfigUsesFallbackOnly(ip: string, maxMind: HttpReply<MaxMindResponse>,
                                      fallback: HttpReply<FallbackApiResponse>)
    ensures FetchFromApi(DefaultConfig, ip, maxMind, fallback).calls == [Call(IpApi, FallbackUrl(ip))]
    ensures FetchFromApi(DefaultConfig, ip, maxMind, fallback).result == FetchFromFallback(fallback)
  {
  }

  /** A MaxMind 404 is an answer, not a failure: the default location is
      returned and ip-api.com is not asked. */
  lemma MaxMindNotFoundStopsAtDefault(config: GeolocationConfig, ip: string,
                                      body: Decoded<MaxMindResponse>,
                                      fallback: HttpReply<FallbackApiResponse>)
    requires HasRealApiKey(config.apiKey)
    ensures FetchFromApi(config, ip, Reply(404, body), fallback)
            == Fetched(Ok(DefaultLocation), [Call(MaxMind, MaxMindUrl(config, ip))])
  {
  }

  /** An unreachable ip-api.com is reported as an error, not replaced by the
      default location, whenever MaxMind did not already answer. */
  lemma FallbackTransportFailureSurfaces(config: GeolocationConfig, ip: string,
                                         maxMind: HttpReply<MaxMindResponse>, shown: string)
    requires !(HasRealApiKey(config.apiKey) && FetchFromMaxMind(maxMind).Ok?)
    ensures FetchFromApi(config, ip, maxMind, TransportFailure(shown)).result
            == Err(InternalServerError("Fallback geolocation API request failed: " + shown))
  {
  }
}

=== FILE: regions.dfy ===
/** Data-residency regions: which of the three storage regions a user's data
    lives in, decided from the user's ISO 3166-1 alpha-2 country code through
    a fixed country table built from four lists. */
module Regions {
  import opened Wrappers
  import opened Text

  datatype DataRegion = EU | US | APAC

  /** `DataRegion::to_string`, the form stored in the database. */
  function RegionToString(r: DataRegion): (s: string)
    ensures s in {"EU", "US", "APAC"}
    ensures Upper(s) == s
  {
    match r
    case EU => "EU"
    case US => "US"
    case APAC => "APAC"
  }

  /** `DataRegion::from_string`: exactly the three stored forms parse, each
      back to the region it was written from; anything else is `None`. */
  function RegionFromString(s: string): (r: Option<DataRegion>)
    ensures r.Some? <==> s == "EU" || s == "US" || s == "APAC"
    ensures r.Some? ==> RegionToString(r.value) == s
  {
    if s == "EU" then Some(EU)
    else if s == "US" then Some(US)
    else if s == "APAC" then Some(APAC)
    else None
  }

  lemma RegionStringRoundTrip(r: DataRegion)
    ensures RegionFromString(RegionToString(r)) == Some(r)
  {
  }

  /** No two regions are stored under the same string. */
  lemma RegionToStringInjective(a: DataRegion, b: DataRegion)
    requires RegionToString(a) == RegionToString(b)
    ensures a == b
  {
    RegionStringRoundTrip(a);
    RegionStringRoundTrip(b);
  }

  /** `RegionService::get_all_regions`. */
  function AllRegions(): (rs: seq<DataRegion>)
    ensures |rs| == 3
    ensures EU in rs && US in rs && APAC in rs
    ensures forall i, j | 0 <= i < j < |rs| :: rs[i] != rs[j]
  {
    [EU, US, APAC]
  }

  // The four lists of `create_country_region_map`, in source order, each
  // written as a few displays joined by `+`.

  /** EU members, the United Kingdom, the EEA and other European countries. */
  const EuCountries: seq<string> :=
    [
      "AT", "BE", "BG", "CY", "CZ", "DE", "DK", "EE", "ES", "FI",
      "FR", "GR", "HR", "HU"
    ] +
    [
      "IE", "IT", "LT", "LU", "LV", "MT", "NL", "PL", "PT", "RO",
      "SE", "SI", "SK", "GB"
    ] +
    [
      "UK", "IS", "LI", "NO", "CH", "AL", "BA", "BY", "MD", "ME",
      "MK", "RS", "UA", "XK"
    ]

  const ApacCountries: seq<string> :=
    [
      "AU", "JP", "KR", "SG", "HK", "TW", "NZ", "MY", "TH", "ID",
      "PH", "VN", "IN", "BD", "LK", "MM", "KH", "LA"
    ] +
    [
      "BN", "MN", "KZ", "KG", "TJ", "TM", "UZ", "AF", "PK", "NP",
      "BT", "MV", "CN", "FJ", "PG", "SB", "VU", "NC"
    ] +
    [
      "PF", "WS", "TO", "KI", "NR", "TV", "FM", "MH", "PW", "CK",
      "NU", "TK", "WF", "AS", "GU", "MP"
    ]

  /** North, Central and South America and the Caribbean. */
  const AmericasCountries: seq<string> :=
    [
      "US", "CA", "MX", "BR", "AR", "CL", "CO", "PE", "VE", "EC",
      "BO", "UY", "PY", "GY", "SR", "FK", "GF", "GT", "HN"
    ] +
    [
      "SV", "NI", "CR", "PA", "BZ", "JM", "HT", "DO", "TT", "BB",
      "GD", "LC", "VC", "AG", "DM", "KN", "BS", "CU", "PR"
    ] +
    [
      "VI", "VG", "AI", "MS", "KY", "TC", "BM", "GL", "PM", "BQ",
      "CW", "AW", "SX", "MQ", "GP", "BL", "MF"
    ]

  /** Middle East, Africa and the Caucasus; stored in the EU region. */
  const MiddleEastAfricaCountries: seq<string> :=
    [
      "AE", "SA", "QA", "KW", "BH", "OM", "JO", "LB", "SY", "IQ",
      "IR", "IL", "PS", "TR", "EG", "LY", "TN", "DZ", "MA"
    ] +
    [
      "SD", "SS", "ET", "ER", "DJ", "SO", "KE", "UG", "TZ", "RW",
      "BI", "CD", "CF", "CM", "TD", "NE", "NG", "BJ", "TG"
    ] +
    [
      "GH", "BF", "CI", "LR", "SL", "GN", "GW", "GM", "SN", "MR",
      "ML", "CV", "ST", "GQ", "GA", "CG", "AO", "ZM", "MW"
    ] +
    [
      "MZ", "ZW", "BW", "NA", "ZA", "LS", "SZ", "MG", "MU", "SC",
      "KM", "YT", "RE", "SH", "YE", "GE", "AM", "AZ"
    ]

  /** One `for` loop of `create_country_region_map`: every code of `codes`
      is (re)bound to `r`; other keys keep their binding. */
  function InsertAll(m: map<string, DataRegion>, codes: seq<string>, r: DataRegion)
    : (m': map<string, DataRegion>)
    decreases |codes|
    ensures forall k :: k in m' <==> k in m || k in codes
    ensures forall k | k in codes :: m'[k] == r
    ensures forall k | k in m && k !in codes :: m'[k] == m[k]
  {
    if |codes| == 0 then m
    else
      var m' := InsertAll(m[codes[0] := r], codes[1..], r);
      assert forall k | k in codes :: k == codes[0] || k in codes[1..];
      m'
  }

  /** `create_country_region_map`: the lists inserted in source order, so a
      code on two lists would keep the later list's region. */
  function CountryRegionMap(): (m: map<string, DataRegion>)
    ensures forall k :: k in m <==>
              k in EuCountries || k in ApacCountries || k in AmericasCountries || k in MiddleEastAfricaCountries
    ensures forall k | k in m ::
              m[k] == (if k in EuCountries || k in MiddleEastAfricaCountries then EU
                       else if k in ApacCountries then APAC
                       else US)
  {
    ListsDisjoint();
    var withEu := InsertAll(map[], EuCountries, EU);
    var withApac := InsertAll(withEu, ApacCountries, APAC);
    var withAmericas := InsertAll(withApac, AmericasCountries, US);
    InsertAll(withAmericas, MiddleEastAfricaCountries, EU)
  }

  /** Which list a code is on, as a table indexed by the code's two letters.
      It is an independent restatement of the four lists, used to show that
      no code is on two of them. */
  datatype Listing = EuListed | ApacListed | AmericasListed | MeaListed | Unlisted

  function ListingOf(code: string): Listing {
    if |code| != 2 then Unlisted
    else
      match code[0]
      case 'A' => (
        match code[1]
        case 'E' => MeaListed
        case 'F' => ApacListed
        case 'G' => AmericasListed
        case 'I' => AmericasListed
        case 'L' => EuListed
        case 'M' => MeaListed
        case 'O' => MeaListed
        case 'R' => AmericasListed
        case 'S' => ApacListed
        case 'T' => EuListed
        case 'U' => ApacListed
        case 'W' => AmericasListed
        case 'Z' => MeaListed
        case _ => Unlisted)
      case 'B' => (
        match code[1]
        case 'A' => EuListed
        case 'B' => AmericasListed
        case 'D' => ApacListed
        case 'E' => EuListed
        case 'F' => MeaListed
        case 'G' => EuListed
        case 'H' => MeaListed
        case 'I' => MeaListed
        case 'J' => MeaListed
        case 'L' => AmericasListed
        case 'M' => AmericasListed
        case 'N' => ApacListed
        case 'O' => AmericasListed
        case 'Q' => AmericasListed
        case 'R' => AmericasListed
        case 'S' => AmericasListed
        case 'T' => ApacListed
        case 'W' => MeaListed
        case 'Y' => EuListed
        case 'Z' => AmericasListed
        case _ => Unlisted)
      case 'C' => (
        match code[1]
        case 'A' => AmericasListed
        case 'D' => MeaListed
        case 'F' => MeaListed
        case 'G' => MeaListed
        case 'H' => EuListed
        case 'I' => MeaListed
        case 'K' => ApacListed
        case 'L' => AmericasListed
        case 'M' => MeaListed
        case 'N' => ApacListed
        case 'O' => AmericasListed
        case 'R' => AmericasListed
        case 'U' => AmericasListed
        case 'V' => MeaListed
        case 'W' => AmericasListed
        case 'Y' => EuListed
        case 'Z' => EuListed
        case _ => Unlisted)
      case 'D' => (
        match code[1]
        case 'E' => EuListed
        case 'J' => MeaListed
        case 'K' => EuListed
        case 'M' => AmericasListed
        case 'O' => AmericasListed
        case 'Z' => MeaListed
        case _ => Unlisted)
      case 'E' => (
        match code[1]
        case 'C' => AmericasListed
        case 'E' => EuListed
        case 'G' => MeaListed
        case 'R' => MeaListed
        case 'S' => EuListed
        case 'T' => MeaListed
        case _ => Unlisted)
      case 'F' => (
        match code[1]
        case 'I' => EuListed
        case 'J' => ApacListed
        case 'K' => AmericasListed
        case 'M' => ApacListed
        case 'R' => EuListed
        case _ => Unlisted)
      case 'G' => (
        match code[1]
        case 'A' => MeaListed
        case 'B' => EuListed
        case 'D' => AmericasListed
        case 'E' => MeaListed
        case 'F' => AmericasListed
        case 'H' => MeaListed
        case 'L' => AmericasListed
        case 'M' => MeaListed
        case 'N' => MeaListed
        case 'P' => AmericasListed
        case 'Q' => MeaListed
        case 'R' => EuListed
        case 'T' => AmericasListed
        case 'U' => ApacListed
        case 'W' => MeaListed
        case 'Y' => AmericasListed
        case _ => Unlisted)
      case 'H' => (
        match code[1]
        case 'K' => ApacListed
        case 'N' => AmericasListed
        case 'R' => EuListed
        case 'T' => AmericasListed
        case 'U' => EuListed
        case _ => Unlisted)
      case 'I' => (
        match code[1]
        case 'D' => ApacListed
        case 'E' => EuListed
        case 'L' => MeaListed
        case 'N' => ApacListed
        case 'Q' => MeaListed
        case 'R' => MeaListed
        case 'S' => EuListed
        case 'T' => EuListed
        case _ => Unlisted)
      case 'J' => (
        match code[1]
        case 'M' => AmericasListed
        case 'O' => MeaListed
        case 'P' => ApacListed
        case _ => Unlisted)
      case 'K' => (
        match code[1]
        case 'E' => MeaListed
        case 'G' => ApacListed
        case 'H' => ApacListed
        case 'I' => ApacListed
        case 'M' => MeaListed
        case 'N' => AmericasListed
        case 'R' => ApacListed
        case 'W' => MeaListed
        case 'Y' => AmericasListed
        case 'Z' => ApacListed
        case _ => Unlisted)
      case 'L' => (
        match code[1]
        case 'A' => ApacListed
        case 'B' => MeaListed
        case 'C' => AmericasListed
        case 'I' => EuListed
        case 'K' => ApacListed
        case 'R' => MeaListed
        case 'S' => MeaListed
        case 'T' => EuListed
        case 'U' => EuListed
        case 'V' => EuListed
        case 'Y' => MeaListed
        case _ => Unlisted)
      case 'M' => (
        match code[1]
        case 'A' => MeaListed
        case 'D' => EuListed
        case 'E' => EuListed
        case 'F' => AmericasListed
        case 'G' => MeaListed
        case 'H' => ApacListed
        case 'K' => EuListed
        case 'L' => MeaListed
        case 'M' => ApacListed
        case 'N' => ApacListed
        case 'P' => ApacListed
        case 'Q' => AmericasListed
        case 'R' => MeaListed
        case 'S' => AmericasListed
        case 'T' => EuListed
        case 'U' => MeaListed
        case 'V' => ApacListed
        case 'W' => MeaListed
        case 'X' => AmericasListed
        case 'Y' => ApacListed
        case 'Z' => MeaListed
        case _ => Unlisted)
      case 'N' => (
        match code[1]
        case 'A' => MeaListed
        case 'C' => ApacListed
        case 'E' => MeaListed
        case 'G' => MeaListed
        case 'I' => AmericasListed
        case 'L' => EuListed
        case 'O' => EuListed
        case 'P' => ApacListed
        case 'R' => ApacListed
        case 'U' => ApacListed
        case 'Z' => ApacListed
        case _ => Unlisted)
      case 'O' => (
        match code[1]
        case 'M' => MeaListed
        case _ => Unlisted)
      case 'P' => (
        match code[1]
        case 'A' => AmericasListed
        case 'E' => AmericasListed
        case 'F' => ApacListed
        case 'G' => ApacListed
        case 'H' => ApacListed
        case 'K' => ApacListed
        case 'L' => EuListed
        case 'M' => AmericasListed
        case 'R' => AmericasListed
        case 'S' => MeaListed
        case 'T' => EuListed
        case 'W' => ApacListed
        case 'Y' => AmericasListed
        case _ => Unlisted)
      case 'Q' => (
        match code[1]
        case 'A' => MeaListed
        case _ => Unlisted)
      case 'R' => (
        match code[1]
        case 'E' => MeaListed
        case 'O' => EuListed
        case 'S' => EuListed
        case 'W' => MeaListed
        case _ => Unlisted)
      case 'S' => (
        match code[1]
        case 'A' => MeaListed
        case 'B' => ApacListed
        case 'C' => MeaListed
        case 'D' => MeaListed
        case 'E' => EuListed
        case 'G' => ApacListed
        case 'H' => MeaListed
        case 'I' => EuListed
        case 'K' => EuListed
        case 'L' => MeaListed
        case 'N' => MeaListed
        case 'O' => MeaListed
        case 'R' => AmericasListed
        case 'S' => MeaListed
        case 'T' => MeaListed
        case 'V' => AmericasListed
        case 'X' => AmericasListed
        case 'Y' => MeaListed
        case 'Z' => MeaListed
        case _ => Unlisted)
      case 'T' => (
        match code[1]
        case 'C' => AmericasListed
        case 'D' => MeaListed
        case 'G' => MeaListed
        case 'H' => ApacListed
        case 'J' => ApacListed
        case 'K' => ApacListed
        case 'M' => ApacListed
        case 'N' => MeaListed
        case 'O' => ApacListed
        case 'R' => MeaListed
        case 'T' => AmericasListed
        case 'V' => ApacListed
        case 'W' => ApacListed
        case 'Z' => MeaListed
        case _ => Unlisted)
      case 'U' => (
        match code[1]
        case 'A' => EuListed
        case 'G' => MeaListed
        case 'K' => EuListed
        case 'S' => AmericasListed
        case 'Y' => AmericasListed
        case 'Z' => ApacListed
        case _ => Unlisted)
      case 'V' => (
        match code[1]
        case 'C' => AmericasListed
        case 'E' => AmericasListed
        case 'G' => AmericasListed
        case 'I' => AmericasListed
        case 'N' => ApacListed
        case 'U' => ApacListed
        case _ => Unlisted)
      case 'W' => (
        match code[1]
        case 'F' => ApacListed
        case 'S' => ApacListed
        case _ => Unlisted)
      case 'X' => (
        match code[1]
        case 'K' => EuListed
        case _ => Unlisted)
      case 'Y' => (
        match code[1]
        case 'E' => MeaListed
        case 'T' => MeaListed
        case _ => Unlisted)
      case 'Z' => (
        match code[1]
        case 'A' => MeaListed
        case 'M' => MeaListed
        case 'W' => MeaListed
        case _ => Unlisted)
      case _ => Unlisted
  }

  /** Only two upper-case ASCII letters are ever listed. */
  lemma ListedCodesAreUpper(code: string)
    requires ListingOf(code) != Unlisted
    ensures |code| == 2 && IsAsciiUpper(code[0]) && IsAsciiUpper(code[1])
  {
  }

  lemma EuListingPart1()
    ensures forall i | 0 <= i < 14 :: ListingOf(EuCountries[i]) == EuListed
  {
  }

  lemma EuListingPart2()
    ensures forall i | 14 <= i < 28 :: ListingOf(EuCountries[i]) == EuListed
  {
  }

  lemma EuListingPart3()
    ensures forall i | 28 <= i < 42 :: ListingOf(EuCountries[i]) == EuListed
  {
  }

  lemma EuListing()
    ensures forall k | k in EuCountries :: ListingOf(k) == EuListed
  {
    EuListingPart1();
    EuListingPart2();
    EuListingPart3();
  }

  lemma ApacListingPart1()
    ensures forall i | 0 <= i < 18 :: ListingOf(ApacCountries[i]) == ApacListed
  {
  }

  lemma ApacListingPart2()
    ensures forall i | 18 <= i < 36 :: ListingOf(ApacCountries[i]) == ApacListed
  {
  }

  lemma ApacListingPart3()
    ensures forall i | 36 <= i < 52 :: ListingOf(ApacCountries[i]) == ApacListed
  {
  }

  lemma ApacListing()
    ensures forall k | k in ApacCountries :: ListingOf(k) == ApacListed
  {
    ApacListingPart1();
    ApacListingPart2();
    ApacListingPart3();
  }

  lemma AmericasListingPart1()
    ensures forall i | 0 <= i < 19 :: ListingOf(AmericasCountries[i]) == AmericasListed
  {
  }

  lemma AmericasListingPart2()
    ensures forall i | 19 <= i < 38 :: ListingOf(AmericasCountries[i]) == AmericasListed
  {
  }

  lemma AmericasListingPart3()
    ensures forall i | 38 <= i < 55 :: ListingOf(AmericasCountries[i]) == AmericasListed
  {
  }

  lemma AmericasListing()
    ensures forall k | k in AmericasCountries :: ListingOf(k) == AmericasListed
  {
    AmericasListingPart1();
    AmericasListingPart2();
    AmericasListingPart3();
  }

  lemma MiddleEastAfricaListingPart1()
    ensures forall i | 0 <= i < 19 :: ListingOf(MiddleEastAfricaCountries[i]) == MeaListed
  {
  }

  lemma MiddleEastAfricaListingPart2()
    ensures forall i | 19 <= i < 38 :: ListingOf(MiddleEastAfricaCountries[i]) == MeaListed
  {
  }

  lemma MiddleEastAfricaListingPart3()
    ensures forall i | 38 <= i < 57 :: ListingOf(MiddleEastAfricaCountries[i]) == MeaListed
  {
  }

  lemma MiddleEastAfricaListingPart4()
    ensures forall i | 57 <= i < 75 :: ListingOf(MiddleEastAfricaCountries[i]) == MeaListed
  {
  }

  lemma MiddleEastAfricaListing()
    ensures forall k | k in MiddleEastAfricaCountries :: ListingOf(k) == MeaListed
  {
    MiddleEastAfricaListingPart1();
    MiddleEastAfricaListingPart2();
    MiddleEastAfricaListingPart3();
    MiddleEastAfricaListingPart4();
  }

  /** The four lists are pairwise disjoint, so the insertion order of
      `create_country_region_map` decides nothing. */
  lemma ListsDisjoint()
    ensures forall k | k in EuCountries ::
      k !in ApacCountries && k !in AmericasCountries && k !in MiddleEastAfricaCountries
    ensures forall k | k in ApacCountries :: k !in AmericasCountries && k !in MiddleEastAfricaCountries
    ensures forall k | k in AmericasCountries :: k !in MiddleEastAfricaCountries
  {
    EuListing();
    ApacListing();
    AmericasListing();
    MiddleEastAfricaListing();
  }

  /** Two upper-case ASCII letters are their own upper-case form. */
  lemma UpperOfUpperPair(k: string)
    requires |k| == 2 && IsAsciiUpper(k[0]) && IsAsciiUpper(k[1])
    ensures Upper(k) == k
  {
    assert Upper(k)[0] == k[0] && Upper(k)[1] == k[1];
  }

  /** A code is on some list exactly when the letter table lists it. */
  lemma ListedMeansTabled(k: string)
    requires k in EuCountries || k in ApacCountries || k in AmericasCountries
          || k in MiddleEastAfricaCountries
    ensures ListingOf(k) != Unlisted
  {
    if k in EuCountries {
      EuListing();
    } else if k in ApacCountries {
      ApacListing();
    } else if k in AmericasCountries {
      AmericasListing();
    } else {
      MiddleEastAfricaListing();
    }
  }

  /** Every listed code is written in upper case. */
  lemma ListsUpperCase(k: string)
    requires k in EuCountries || k in ApacCountries || k in AmericasCountries
          || k in MiddleEastAfricaCountries
    ensures Upper(k) == k
  {
    ListedMeansTabled(k);
    ListedCodesAreUpper(k);
    UpperOfUpperPair(k);
  }

  /** `RegionService::get_region_for_country`: the code is upper-cased and
      looked up; EU and Middle East/Africa codes give EU, APAC codes give
      APAC, and the Americas and every code on no list give US. */
  function RegionForCountry(code: string): (r: DataRegion)
    ensures var u := Upper(code);
      r == (if u in EuCountries || u in MiddleEastAfricaCountries then EU
            else if u in ApacCountries then APAC
            else US)
  {
    ListsDisjoint();
    var m := CountryRegionMap();
    var u := Upper(code);
    if u in m then m[u] else US
  }

  /** The lookup ignores letter case. */
  lemma RegionCaseInsensitive(code: string)
    ensures RegionForCountry(code) == RegionForCountry(Upper(code))
  {
    UpperIdempotent(code);
  }

  /** Each listed code, as written, maps to its list's region. */
  lemma ListedCodesMapToTheirRegion(k: string)
    ensures k in EuCountries ==> RegionForCountry(k) == EU
    ensures k in MiddleEastAfricaCountries ==> RegionForCountry(k) == EU
    ensures k in ApacCountries ==> RegionForCountry(k) == APAC
    ensures k in AmericasCountries ==> RegionForCountry(k) == US
  {
    ListsDisjoint();
    if k in EuCountries || k in ApacCountries || k in AmericasCountries
       || k in MiddleEastAfricaCountries {
      ListsUpperCase(k);
    }
  }

  /** `RegionService::requires_strict_residency`: strict (GDPR-like)
      residency is required exactly for the EU and Middle East/Africa lists. */
  function RequiresStrictResidency(code: string): (strict: bool)
    ensures strict <==> Upper(code) in EuCountries || Upper(code) in MiddleEastAfricaCountries
    ensures strict <==> RegionForCountry(code) == EU
  {
    match RegionForCountry(code)
    case EU => true
    case _ => false
  }

  /** A code that is on no list gets the US default. */
  lemma UnlistedCodesDefaultToUs(code: string)
    requires ListingOf(Upper(code)) == Unlisted
    ensures RegionForCountry(code) == US
    ensures !RequiresStrictResidency(code)
  {
    EuListing();
    ApacListing();
    AmericasListing();
    MiddleEastAfricaListing();
  }

  // The region table's own test cases.

  lemma EuExamples()
    ensures RegionForCountry("DE") == EU && RegionForCountry("FR") == EU
    ensures RegionForCountry("GB") == EU && RegionForCountry("CH") == EU
  {
    assert "DE" in EuCountries && "FR" in EuCountries;
    assert "GB" in EuCountries && "CH" in EuCountries;
    ListedCodesMapToTheirRegion("DE");
    ListedCodesMapToTheirRegion("FR");
    ListedCodesMapToTheirRegion("GB");
    ListedCodesMapToTheirRegion("CH");
  }

  lemma AmericasExamples()
    ensures RegionForCountry("US") == US && RegionForCountry("CA") == US
    ensures RegionForCountry("BR") == US && RegionForCountry("MX") == US
  {
    assert "US" in AmericasCountries && "CA" in AmericasCountries;
    assert "BR" in AmericasCountries && "MX" in AmericasCountries;
    ListedCodesMapToTheirRegion("US");
    ListedCodesMapToTheirRegion("CA");
    ListedCodesMapToTheirRegion("BR");
    ListedCodesMapToTheirRegion("MX");
  }

  lemma ApacExamples()
    ensures RegionForCountry("JP") == APAC && RegionForCountry("AU") == APAC
    ensures RegionForCountry("SG") == APAC && RegionForCountry("IN") == APAC
  {
    assert "JP" in ApacCountries && "AU" in ApacCountries;
    assert "SG" in ApacCountries && "IN" in ApacCountries;
    ListedCodesMapToTheirRegion("JP");
    ListedCodesMapToTheirRegion("AU");
    ListedCodesMapToTheirRegion("SG");
    ListedCodesMapToTheirRegion("IN");
  }

  /** Strictness follows from the region alone. */
  lemma StrictnessOfRegion(code: string, r: DataRegion)
    requires RegionForCountry(code) == r
    ensures RequiresStrictResidency(code) <==> r == EU
  {
  }

  lemma StrictResidencyExamples()
    ensures RequiresStrictResidency("DE") && RequiresStrictResidency("FR")
    ensures !RequiresStrictResidency("US") && !RequiresStrictResidency("JP")
  {
    EuExamples();
    AmericasExamples();
    ApacExamples();
    StrictnessOfRegion("DE", EU);
    StrictnessOfRegion("FR", EU);
    StrictnessOfRegion("US", US);
    StrictnessOfRegion("JP", APAC);
  }

  lemma RegionStringExamples()
    ensures RegionToString(EU) == "EU" && RegionToString(US) == "US" && RegionToString(APAC) == "APAC"
    ensures RegionFromString("EU") == Some(EU) && RegionFromString("US") == Some(US)
    ensures RegionFromString("APAC") == Some(APAC) && RegionFromString("INVALID") == None
  {
  }

  /** A spelling is looked up as its upper-case form. */
  lemma SameUpperSameRegion(code: string, upper: string)
    requires Upper(code) == upper
    ensures RegionForCountry(code) == RegionForCountry(upper)
  {
    RegionCaseInsensitive(code);
  }

  lemma LowerCaseExamples()
    ensures RegionForCountry("us") == US
    ensures RegionForCountry("de") == EU
    ensures RegionForCountry("jp") == APAC
  {
    assert Upper("us") == "US" && Upper("de") == "DE" && Upper("jp") == "JP";
    SameUpperSameRegion("us", "US");
    SameUpperSameRegion("de", "DE");
    SameUpperSameRegion("jp", "JP");
    AmericasExamples();
    EuExamples();
    ApacExamples();
  }

  lemma DefaultExamples()
    ensures RegionForCountry("ZZ") == US && RegionForCountry("UNKNOWN") == US
  {
    assert Upper("ZZ") == "ZZ";
    UnlistedCodesDefaultToUs("ZZ");
    assert |Upper("UNKNOWN")| == 7;
    UnlistedCodesDefaultToUs("UNKNOWN");
  }
}

=== FILE: resolver.dfy ===
/** `GeolocationService::get_location` and `health_check`: validate the
    address, answer from the cache while the entry is fresh, otherwise ask
    the providers and remember a successful answer. The cache is threaded
    through explicitly; the two clock readings are the read of the cache and
    the later write. */
module Resolver {
  import opened Wrappers
  import opened Text
  import opened ApiErrors
  import opened Location
  import opened Cache
  import opened Providers

  /** The error for a missing address. */
  const MissingAddress: ApiError := BadRequest("IP address is required")

  /** `get_location`. The blank test looks at the trimmed address, but the
      cache key and the provider URLs use the address exactly as given. A
      fetched record is stored through `cache_location`, so the size cap and
      the eviction of expired and then oldest entries apply to the miss. */
  method GetLocation(config: GeolocationConfig, cache: Cache, ip: string,
                     readNow: nat, writeNow: nat,
                     maxMind: HttpReply<MaxMindResponse>,
                     fallback: HttpReply<FallbackApiResponse>)
    returns (r: Result<LocationInfo, ApiError>, out: Cache, calls: seq<Call>)
    ensures IsBlank(ip) ==> r == Err(MissingAddress) && out == cache && calls == []
    ensures !IsBlank(ip) && Lookup(cache, ip, readNow, TtlNanos(config)).Some? ==>
              r == Ok(cache[ip].location) && out == cache && calls == []
    ensures !IsBlank(ip) && Lookup(cache, ip, readNow, TtlNanos(config)).None? ==>
              var f := FetchFromApi(config, ip, maxMind, fallback);
              && calls == f.calls
              && r == f.result
              && (r.Err? ==> out == cache)
              && (r.Ok? ==> ip in out && out[ip] == CacheEntry(r.value, writeNow))
              && (r.Ok? ==> StoredWithCap(cache, config.maxCacheEntries, TtlNanos(config),
                                          ip, r.value, writeNow, out))
    ensures r.Ok? ==> ip in out && out[ip].location == r.value
    ensures calls == [] <==> IsBlank(ip) || Lookup(cache, ip, readNow, TtlNanos(config)).Some?
    ensures |out| <= |cache| + 1
    ensures forall k | k in out && k != ip :: k in cache && out[k] == cache[k]
  {
    if |Trim(ip)| == 0 {
      return Err(MissingAddress), cache, [];
    }
    var ttl := TtlNanos(config);
    var hit := Lookup(cache, ip, readNow, ttl);
    if hit.Some? {
      return Ok(hit.value), cache, [];
    }
    var fetched := FetchFromApi(config, ip, maxMind, fallback);
    calls := fetched.calls;
    r := fetched.result;
    if r.Err? {
      out := cache;
      return;
    }
    out := CacheLocation(cache, config.maxCacheEntries, ttl, ip, r.value, writeNow);
  }

  /** The address `health_check` resolves. */
  const ProbeAddress: string := "8.8.8.8"

  lemma ProbeAddressIsNotBlank()
    ensures !IsBlank(ProbeAddress)
  {
    assert !IsWhitespace(ProbeAddress[0]);
  }

  /** `health_check`: healthy exactly when resolving the probe address
      succeeds; otherwise the lookup's own error is passed on. A fetched
      probe record is cached like any other lookup's, under the same cap and
      eviction. */
  method HealthCheck(config: GeolocationConfig, cache: Cache, readNow: nat, writeNow: nat,
                     maxMind: HttpReply<MaxMindResponse>,
                     fallback: HttpReply<FallbackApiResponse>)
    returns (r: Result<(), ApiError>, out: Cache)
    ensures Lookup(cache, ProbeAddress, readNow, TtlNanos(config)).Some? ==> r.Ok? && out == cache
    ensures Lookup(cache, ProbeAddress, readNow, TtlNanos(config)).None? ==>
              var f := FetchFromApi(config, ProbeAddress, maxMind, fallback);
              && (r.Ok? <==> f.result.Ok?)
              && (r.Err? ==> r.error == f.result.error && out == cache)
              && (r.Ok? ==> ProbeAddress in out && out[ProbeAddress] == CacheEntry(f.result.value, writeNow))
              && (r.Ok? ==> StoredWithCap(cache, config.maxCacheEntries, TtlNanos(config),
                                          ProbeAddress, f.result.value, writeNow, out))
    ensures forall k | k in out && k != ProbeAddress :: k in cache && out[k] == cache[k]
  {
    ProbeAddressIsNotBlank();
    var found, after, _ := GetLocation(config, cache, ProbeAddress, readNow, writeNow, maxMind, fallback);
    out := after;
    match found
    case Ok(_) => r := Ok(());
    case Err(e) => r := Err(e);
  }

  /** A fetched answer is served from the cache afterwards: resolving the
      same address again less than the time-to-live after it was stored
      returns the same record and calls no provider, whatever the providers
      would now say. */
  method ResolveTwice(config: GeolocationConfig, cache: Cache, ip: string,
                      t1: nat, t2: nat, d: nat,
                      maxMind: HttpReply<MaxMindResponse>,
                      fallback: HttpReply<FallbackApiResponse>,
                      maxMindLater: HttpReply<MaxMindResponse>,
                      fallbackLater: HttpReply<FallbackApiResponse>)
    returns (first: Result<LocationInfo, ApiError>, firstCalls: seq<Call>,
             second: Result<LocationInfo, ApiError>, secondCalls: seq<Call>)
    requires d < TtlNanos(config)
    ensures first.Ok? && firstCalls != [] ==> second == first && secondCalls == []
  {
    var afterFirst;
    first, afterFirst, firstCalls := GetLocation(config, cache, ip, t1, t2, maxMind, fallback);
    var afterSecond;
    second, afterSecond, secondCalls := GetLocation(config, afterFirst, ip, t2 + d, t2 + d, maxMindLater, fallbackLater);
    if first.Ok? && firstCalls != [] {
      assert Age(afterFirst[ip], t2 + d) == d;
    }
  }
}

=== FILE: text.dfy ===
/** The handful of Rust string primitives the core relies on, stated over
    `string` = `seq<char>` (a `char` is a Unicode scalar value):
    `str::trim` (Unicode White_Space on both ends), the ASCII part of
    `str::to_uppercase`, `str::len` (UTF-8 byte length) and the decimal
    rendering `Display` gives integers. */
module Text {

  /** Unicode White_Space, the set `char::is_whitespace` and so `str::trim` use. */
  predicate IsWhitespace(c: char) {
    || ('\t' <= c <= '\r')
    || c == ' '
    || c == '\U{85}'
    || c == '\U{A0}'
    || c == '\U{1680}'
    || ('\U{2000}' <= c <= '\U{200A}')
    || c == '\U{2028}'
    || c == '\U{2029}'
    || c == '\U{202F}'
    || c == '\U{205F}'
    || c == '\U{3000}'
  }

  predicate IsBlank(s: string) {
    forall i | 0 <= i < |s| :: IsWhitespace(s[i])
  }

  /** Number of whitespace characters `s` starts with. */
  function LeadingWhitespace(s: string): (n: nat)
    ensures n <= |s|
    ensures forall i | 0 <= i < n :: IsWhitespace(s[i])
    ensures n < |s| ==> !IsWhitespace(s[n])
  {
    if |s| == 0 || !IsWhitespace(s[0]) then 0
    else
      var n := 1 + LeadingWhitespace(s[1..]);
      assert forall i | 1 <= i < n :: s[i] == s[1..][i - 1];
      n
  }

  /** Number of whitespace characters `s` ends with. */
  function TrailingWhitespace(s: string): (n: nat)
    ensures n <= |s|
    ensures forall i | |s| - n <= i < |s| :: IsWhitespace(s[i])
    ensures n < |s| ==> !IsWhitespace(s[|s| - n - 1])
  {
    if |s| == 0 || !IsWhitespace(s[|s| - 1]) then 0
    else
      var n := 1 + TrailingWhitespace(s[..|s| - 1]);
      assert forall i | |s| - n <= i < |s| - 1 :: s[i] == s[..|s| - 1][i];
      n
  }

  /** Rust's `str::trim_start`. */
  function TrimStart(s: string): (r: string)
    ensures |r| <= |s| && r == s[|s| - |r|..]
    ensures IsBlank(s[..|s| - |r|])
    ensures |r| > 0 ==> !IsWhitespace(r[0])
  {
    s[LeadingWhitespace(s)..]
  }

  /** Rust's `str::trim_end`. */
  function TrimEnd(s: string): (r: string)
    ensures |r| <= |s| && r == s[..|r|]
    ensures IsBlank(s[|r|..])
    ensures |r| > 0 ==> !IsWhitespace(r[|r| - 1])
  {
    s[..|s| - TrailingWhitespace(s)]
  }

  /** Rust's `str::trim`: the infix left after dropping whitespace from both
      ends; it is empty exactly when `s` is blank. */
  function Trim(s: string): (r: string)
    ensures |r| <= |s|
    ensures |r| > 0 ==> !IsWhitespace(r[0]) && !IsWhitespace(r[|r| - 1])
    ensures |r| == 0 <==> IsBlank(s)
  {
    var t := TrimStart(s);
    var r := TrimEnd(t);
    assert |r| > 0 ==> r[0] == t[0];
    assert |r| == 0 ==> IsBlank(t) by {
      if |r| == 0 {
        assert t[|r|..] == t;
      }
    }
    assert s == s[..|s| - |t|] + t;
    r
  }

  /** A string without whitespace at either end is its own trim. */
  lemma TrimOfTrimmed(s: string)
    requires |s| > 0 ==> !IsWhitespace(s[0]) && !IsWhitespace(s[|s| - 1])
    ensures Trim(s) == s
  {
    if |s| > 0 {
      assert LeadingWhitespace(s) == 0;
      assert TrimStart(s) == s;
      assert TrailingWhitespace(s) == 0;
    }
  }

  /** Trimming twice is trimming once. */
  lemma TrimIdempotent(s: string)
    ensures Trim(Trim(s)) == Trim(s)
  {
    TrimOfTrimmed(Trim(s));
  }

  /** `t` is `s` with nothing but whitespace removed from either end. */
  ghost predicate IsTrimOf(t: string, s: string) {
    exists a | 0 <= a <= |s| - |t| ::
      t == s[a..a + |t|] && IsBlank(s[..a]) && IsBlank(s[a + |t|..])
  }

  /** The trim is an infix of its input, cut out between two blank ends. */
  lemma TrimIsInfix(s: string)
    ensures IsTrimOf(Trim(s), s)
  {
    var t := TrimStart(s);
    var r := TrimEnd(t);
    var a := |s| - |t|;
    assert r == Trim(s);
    assert t == s[a..];
    assert r == s[a..a + |r|];
    assert IsBlank(s[..a]);
    assert t[|r|..] == s[a + |r|..];
    assert IsBlank(s[a + |r|..]);
  }

  /** A character missing from `s` is missing from its trim. */
  lemma TrimKeepsAbsence(s: string, ch: char)
    requires ch !in s
    ensures ch !in Trim(s)
  {
    var t := TrimStart(s);
    assert forall i | 0 <= i < |t| :: t[i] == s[|s| - |t| + i];
    var r := TrimEnd(t);
    assert r == Trim(s);
    assert forall i | 0 <= i < |r| :: r[i] == t[i];
  }

  /** Cutting two equal strings at the first occurrence of one separator
      gives equal pieces: neither head contains it and both tails start
      with it. */
  lemma SplitAtFirst(a: string, x: string, c: string, y: string, sep: char)
    requires sep !in a && sep !in c
    requires |x| > 0 && x[0] == sep && |y| > 0 && y[0] == sep
    requires a + x == c + y
    ensures a == c && x == y
  {
    var s := a + x;
    assert s[|a|] == sep;
    assert s[|c|] == sep;
    if |a| < |c| {
      assert false;
    } else if |c| < |a| {
      assert false;
    }
    assert a == s[..|a|] && c == s[..|c|];
    assert x == s[|a|..] && y == s[|c|..];
  }

  lemma ConcatAssoc(x: string, y: string, z: string)
    ensures x + (y + z) == x + y + z
  {
  }

  /** Equal strings with a common prefix have equal remainders. */
  lemma CancelPrefix(p: string, x: string, y: string)
    requires p + x == p + y
    ensures x == y
  {
    assert x == (p + x)[|p|..];
    assert y == (p + y)[|p|..];
  }

  /** Cutting two equal strings where the last occurrence of a mark begins
      their tails gives equal pieces. */
  lemma SplitAtLastMark(a: string, q: string, c: string, p: string, mark: char)
    requires |q| > 0 && q[0] == mark && forall i | 1 <= i < |q| :: q[i] != mark
    requires |p| > 0 && p[0] == mark && forall i | 1 <= i < |p| :: p[i] != mark
    requires a + q == c + p
    ensures a == c && q == p
  {
    var s := a + q;
    assert s[|a|] == mark;
    assert s[|c|] == mark;
    if |a| < |c| {
      assert false;
    } else if |c| < |a| {
      assert false;
    }
    assert a == s[..|a|] && c == s[..|c|];
    assert q == s[|a|..] && p == s[|c|..];
  }

  predicate IsAsciiUpper(c: char) {
    'A' <= c <= 'Z'
  }

  predicate IsAsciiLower(c: char) {
    'a' <= c <= 'z'
  }

  predicate IsAscii(c: char) {
    c as int < 0x80
  }

  /** `char::to_ascii_uppercase`: the only part of `to_uppercase` this model keeps. */
  function UpperChar(c: char): (u: char)
    ensures IsAscii(c) <==> IsAscii(u)
    ensures IsAsciiUpper(u) <==> IsAsciiUpper(c) || IsAsciiLower(c)
    ensures !IsAsciiLower(c) ==> u == c
  {
    if IsAsciiLower(c) then (c as int - 32) as char else c
  }

  /** `str::to_uppercase` restricted to the ASCII letters. */
  function Upper(s: string): (r: string)
    ensures |r| == |s|
    ensures forall i | 0 <= i < |s| :: r[i] == UpperChar(s[i])
  {
    seq(|s|, i requires 0 <= i < |s| => UpperChar(s[i]))
  }

  lemma UpperIdempotent(s: string)
    ensures Upper(Upper(s)) == Upper(s)
  {
  }

  /** Length in bytes of the UTF-8 encoding of `c`. */
  function Utf8Width(c: char): (w: nat)
    ensures 1 <= w <= 4
    ensures w == 1 <==> IsAscii(c)
  {
    if c as int < 0x80 then 1
    else if c as int < 0x800 then 2
    else if c as int < 0x1_0000 then 3
    else 4
  }

  /** Rust's `str::len`: the UTF-8 byte length, not the character count. */
  function ByteLen(s: string): (n: nat)
    ensures n >= |s|
    ensures n == |s| <==> forall i | 0 <= i < |s| :: IsAscii(s[i])
  {
    if |s| == 0 then 0
    else
      var n := Utf8Width(s[0]) + ByteLen(s[1..]);
      assert forall i | 1 <= i < |s| :: s[i] == s[1..][i - 1];
      n
  }

  predicate IsDigit(c: char) {
    '0' <= c <= '9'
  }

  function DigitChar(d: nat): (c: char)
    requires d < 10
    ensures IsDigit(c)
    ensures c as int - '0' as int == d
  {
    ('0' as int + d) as char
  }

  /** Decimal rendering of a natural number, as `Display` prints unsigned integers. */
  function NatToString(n: nat): (r: string)
    ensures |r| >= 1
    ensures forall i | 0 <= i < |r| :: IsDigit(r[i])
    ensures |r| > 1 ==> r[0] != '0'
    decreases n
  {
    if n < 10 then [DigitChar(n)]
    else NatToString(n / 10) + [DigitChar(n % 10)]
  }

  /** The value of a string of decimal digits. */
  function DigitsValue(s: string): nat
    requires forall i | 0 <= i < |s| :: IsDigit(s[i])
  {
    if |s| == 0 then 0
    else
      assert IsDigit(s[|s| - 1]);
      DigitsValue(s[..|s| - 1]) * 10 + (s[|s| - 1] as int - '0' as int)
  }

  /** Reading the digits back gives the number: the rendering loses nothing. */
  lemma {:induction false} NatToStringRoundTrip(n: nat)
    ensures DigitsValue(NatToString(n)) == n
    decreases n
  {
    if n >= 10 {
      var s := NatToString(n);
      NatToStringRoundTrip(n / 10);
      assert s[..|s| - 1] == NatToString(n / 10);
    }
  }

  /** Decimal rendering of a signed integer, as `Display` prints `i32`. */
  function IntToString(n: int): (r: string)
    ensures |r| >= 1
    ensures r[0] == '-' <==> n < 0
    ensures forall i | 0 <= i < |r| :: IsDigit(r[i]) || r[i] == '-'
  {
    if n < 0 then "-" + NatToString(-n) else NatToString(n)
  }

  lemma NatToStringInjective(a: nat, b: nat)
    requires NatToString(a) == NatToString(b)
    ensures a == b
  {
    NatToStringRoundTrip(a);
    NatToStringRoundTrip(b);
  }

  /** Different numbers never render alike. */
  lemma IntToStringInjective(a: int, b: int)
    requires IntToString(a) == IntToString(b)
    ensures a == b
  {
    var s := IntToString(a);
    if a < 0 {
      assert b < 0;
      assert NatToString(-a) == s[1..] == NatToString(-b);
      NatToStringInjective(-a, -b);
    } else {
      NatToStringInjective(a, b);
    }
  }
}

=== FILE: wrappers.dfy ===
/** Option and Result, the two failure-carrying shapes the Rust code returns
    (`Option<T>` and `Result<T, E>`). */
module Wrappers {

  datatype Option<+T> = None | Some(value: T) {

    /** The wrapped value, or `default` when there is none (Rust's `unwrap_or`). */
    function GetOr(default: T): T {
      match this
      case Some(v) => v
      case None => default
    }
  }

  datatype Result<+T, +E> = Ok(value: T) | Err(error: E)
}
